=== FILE: README.md ===
# gibbs core in Dafny

A model of the computational core of **gibbs**, a small Python package for phase-equilibrium
calculations. It covers three parts:

- **`ceos.py`**: the cubic-equation-of-state base class and its Peng–Robinson (1978)
  parameterisation. This includes the attribute validators, the reduced temperature and
  pressure, the acentric shape factor `m` and the temperature correction `alpha`. It also
  includes the pure-component parameters `a_i`/`b_i`, their dimensionless forms `A_i`/`B_i`,
  the combining rule `A_ij`, and the mixing rules `A_mix`/`B_mix`.
- **`minimization.py`**: the differential-evolution settings with their population-size
  estimate, and the optimization problem with its defaulting of settings. It also covers
  the dispatch on the optimization method.
- **`stability_analysis.py`**: the tangent-plane-distance (TPD) phase-stability test. This
  covers the box search space, the reduced TPD objective with its penalty guard, the
  renormalisation of the optimizer's point, and the split/no-split classification.

Arithmetic is exact real arithmetic. The numpy results that are not numbers are modelled as
`Failure` values of a `Result`: a division by zero gives `NonFinite`, and `np.dot`,
`np.allclose` or the elementwise `f_x / f_z` and `x * log(...)` of `_reduced_tpd` on operands
of different lengths give `ShapeMismatch`. Every `ValueError` the source raises is
a `Failure` carrying the matching error constructor.

Some functions are not defined in the core, and the model takes them as parameters:

- **`np.sqrt` and `np.log`** are the fields of a `Numerics.Math` record. They come with the
  only facts the proofs use: `SqrtSound` (a non-negative square root) and `LnSound`
  (`ln 1 = 0`).
- **The fluid model's fugacity** is a function field of `Stability.FluidModel`.
- **SciPy's `differential_evolution`** is a function from the exact call record
  (`Minimization.DeCall`) to an `OptimizeResult`.

Files, one module each:

| file | module | models |
|---|---|---|
| results.dfy | `Results` | `Option`, `Result`, `Outcome` (raise / no raise) |
| vectors.dfy | `Vectors` | `sum`, `dot`, scaling, division by the sum, matrices and the quadratic form |
| numerics.dfy | `Numerics` | `sqrt` and `ln` as parameters, square-root and product facts |
| ceos.dfy | `CubicEos` | `CEOS`: validators, construction, `Tr`, `Pr` |
| peng_robinson.dfy | `PengRobinson` | `PengRobinson78`: `m`, `alpha`, `a_i`, `b_i`, `A_i`, `B_i`, `A_ij`, `A_mix`, `B_mix` |
| minimization.dfy | `Minimization` | settings, problem, `solve_minimization` |
| stability.dfy | `Stability` | `stability_test`, `_reduced_tpd`, `_penalty_function` |

## Model

| member | source | states |
|---|---|---|
| CubicEos.CheckInputDimensions | gibbs/ceos.py:7-13 | passes exactly when the acentric factors, critical temperatures, critical pressures and composition all have one length; otherwise the dimensions error |
| CubicEos.CheckBip | gibbs/ceos.py:16-20 | passes exactly when the BIP matrix is square of the component count; a non-square matrix gives the "2-dim symmetric" error, and a square one of the wrong size gives the "incompatible dimension" error |
| CubicEos.CheckOverallComposition | gibbs/ceos.py:35-39 | passes exactly when the composition sums to within 1e-5 of 1 |
| CubicEos.ValidateTcAsWritten | gibbs/ceos.py:41-44 | as written, the critical-temperature validator accepts every vector |
| CubicEos.ValidatePcAsWritten | gibbs/ceos.py:46-49 | as written, the critical-pressure validator accepts every vector |
| CubicEos.ValidateTc | gibbs/ceos.py:41-44 | corrected validator: passes exactly when every critical temperature is greater than zero, otherwise the temperature error |
| CubicEos.ValidatePc | gibbs/ceos.py:46-49 | corrected validator: passes exactly when every critical pressure is greater than zero, otherwise the pressure error |
| CubicEos.NegativeCriticalTemperatureAccepted | gibbs/ceos.py:41-44 | the critical temperature vector `[-1]` passes the validator as written and is rejected by the corrected one |
| CubicEos.NegativeCriticalPressureAccepted | gibbs/ceos.py:46-49 | the critical pressure vector `[-1]` passes the validator as written and is rejected by the corrected one |
| CubicEos.Construct | gibbs/ceos.py:23-49 | the constructor with the corrected critical-value validators: succeeds exactly for attributes satisfying the class invariant `Valid`, and then returns them unchanged; the first failing validator in attribute order (composition, Tc, Pc, dimensions, BIP) decides the error |
| CubicEos.ConstructAsWritten | gibbs/ceos.py:23-49 | the constructor as written: succeeds exactly when the composition sums to within 1e-5 of 1, the four lengths agree and the BIP matrix is square of the component count, whatever the critical values; failures in attribute order |
| CubicEos.NegativeCriticalTemperatureConstructed | gibbs/ceos.py:29-49 | the constructor as written builds an instance with Tc = `[-1]`, which the corrected constructor refuses with the temperature error |
| CubicEos.ConstructRefinesAsWritten | gibbs/ceos.py:29-49 | every instance the corrected constructor builds, the constructor as written builds too |
| CubicEos.Tr | gibbs/ceos.py:55-58 | fails exactly for a negative temperature, with the temperature error; otherwise one reduced temperature per component, each of which times its critical temperature gives T |
| CubicEos.Pr | gibbs/ceos.py:60-63 | fails exactly for a negative pressure, with the pressure error; otherwise one reduced pressure per component, each of which times its critical pressure gives P |
| CubicEos.TrAtCritical | gibbs/ceos.py:55-58 | the reduced temperature of a component at its own critical temperature is 1 |
| CubicEos.NormalizedCompositionAccepted | gibbs/ceos.py:35-39 | every vector renormalised by its non-zero sum passes the composition check |
| CubicEos.PureComponentAccepted | gibbs/ceos.py:35-39 | a pure-component composition passes the composition check |
| PengRobinson.WithDefaults | gibbs/ceos.py:72-74 | the default EOS constants satisfy 0 < Ω_b < Z_c < Ω_a and keep the base attributes |
| PengRobinson.ShapeFactor | gibbs/ceos.py:79-82 | the cubic branch is chosen exactly for an acentric factor above 0.49; 0.49 itself takes the quadratic branch |
| PengRobinson.M | gibbs/ceos.py:76-83 | one shape factor per component, each choosing its branch from its own acentric factor |
| PengRobinson.ShapeFactorIncreasing | gibbs/ceos.py:76-83 | `m` is strictly increasing in the acentric factor, across the switch between the quadratic and cubic branches at 0.49 too |
| PengRobinson.ShapeFactorPositive | gibbs/ceos.py:76-83 | for a non-negative acentric factor, `m` is at least 0.37464 |
| PengRobinson.Alpha | gibbs/ceos.py:92-93 | fails exactly for a negative temperature, with the error of `Tr`; otherwise one non-negative correction per component |
| PengRobinson.AlphaAtCritical | gibbs/ceos.py:92-93 | at a component's critical temperature its `alpha` is 1 |
| PengRobinson.AI | gibbs/ceos.py:85-86 | fails exactly for a negative temperature; otherwise one attraction parameter per component, non-negative when Ω_a is |
| PengRobinson.AIAtCritical | gibbs/ceos.py:85-86 | at a component's critical temperature `a_i` equals Ω_a·R²·Tc²/Pc |
| PengRobinson.BI | gibbs/ceos.py:88-90 | one covolume per component, all positive when Ω_b is |
| PengRobinson.CapitalAI | gibbs/ceos.py:95-96 | succeeds exactly for a positive temperature; a negative one gives the temperature error and zero gives a non-finite result; one entry per component, each of which times (R·T)² equals `a_i`·P |
| PengRobinson.CapitalAISign | gibbs/ceos.py:95-96 | with Ω_a ≥ 0 every `A_i` is zero or has the sign of the pressure |
| PengRobinson.CapitalBI | gibbs/ceos.py:98-99 | succeeds exactly for a non-zero temperature (only zero is non-finite); each `B_i` times R·T equals `b_i`·P |
| PengRobinson.CapitalAIJ | gibbs/ceos.py:107-108 | succeeds exactly when `A_i` does; the result is an n×n matrix given by the combining rule over `A_i`, and symmetric whenever the BIP matrix is |
| PengRobinson.CombiningRule | gibbs/ceos.py:107-108 | entry (i, j) is (1 − k_ij)·sqrt(A_i·A_j); the matrix is square of the vector's length and symmetric when the BIP matrix is |
| PengRobinson.CombiningRuleDiagonal | gibbs/ceos.py:107-108 | for non-negative `A`, the diagonal of the combining rule is (1 − k_kk)·A_k |
| PengRobinson.CapitalAIJDiagonal | gibbs/ceos.py:107-108 | where every `A_i` is non-negative, the diagonal of `A_ij` is (1 − k_kk)·A_k |
| PengRobinson.AMix | gibbs/ceos.py:101-102 | succeeds exactly for a positive temperature and a composition of the component count; a negative temperature raises first, then a wrong length is a shape mismatch even at zero temperature, and zero temperature with the right length is non-finite; the value is the quadratic form zᵀ·A_ij·z |
| Vectors.QuadraticFormByRows | gibbs/ceos.py:101-102 | `np.dot(z, np.dot(z, A))` equals the double sum Σᵢ zᵢ·(Σⱼ Aᵢⱼ·zⱼ) |
| PengRobinson.AMixPureComponent | gibbs/ceos.py:101-102 | for a pure component at non-negative pressure, `A_mix` is (1 − k_kk)·A_k |
| PengRobinson.AMixScale | gibbs/ceos.py:101-102 | `A_mix` is homogeneous of degree two: scaling the composition by c scales it by c² |
| PengRobinson.BMix | gibbs/ceos.py:104-105 | succeeds exactly for a non-zero temperature and a composition of the component count; a wrong length is always a shape mismatch, and zero temperature with the right length is non-finite; the value is z·B |
| PengRobinson.BMixPureComponent | gibbs/ceos.py:104-105 | for a pure component `B_mix` is that component's `B_k` |
| PengRobinson.BMixScale | gibbs/ceos.py:104-105 | `B_mix` is homogeneous of degree one in the composition |
| PengRobinson.BMixAdd | gibbs/ceos.py:104-105 | `B_mix` is additive in the composition |
| Minimization.EstimatePopulationSize | gibbs/minimization.py:77-82 | the estimate is the product of per-variable size and variable count, or the limit, whichever is smaller |
| Minimization.EstimateMonotone | gibbs/minimization.py:77-82 | with a non-negative per-variable size, the estimate does not decrease as variables are added |
| Minimization.DefaultEstimate | gibbs/minimization.py:70-82 | with the defaults, the estimate is 15·n up to six variables and 100 from seven on |
| Minimization.PostInit | gibbs/minimization.py:73-75 | afterwards `popsize` is always set; an explicit `popsize` leaves the record unchanged; a missing one becomes the estimate and nothing else changes |
| Minimization.PostInitIdempotent | gibbs/minimization.py:73-75 | post-init applied twice is post-init applied once |
| Minimization.DefaultSettings | gibbs/minimization.py:60-75 | default settings carry the given variable count, strategy 'best1bin', recombination 0.3, mutation 0.6, tol 1e-5, 15 per variable with a limit of 100 and the popsize estimated from them; recombination lies in [0, 1] and mutation in [0, 2]; shared random state, one worker, no display, polishing on |
| Minimization.ProblemPostInit | gibbs/minimization.py:96-102 | objective, bounds, args and method are kept; explicit settings are kept; a SCIPY_DE problem without settings gets the defaults for `len(bounds)` variables |
| Minimization.ProblemPostInitSettles | gibbs/minimization.py:96-102 | after post-init a SCIPY_DE problem has settings, and a second post-init changes nothing |
| Minimization.DeRequest | gibbs/minimization.py:104-120 | the call forwards objective, bounds and args, and every forwarded settings attribute can be read back from it (the settings round trip); the variable count and the two population-size inputs are not forwarded |
| Minimization.SolveMinimization | gibbs/minimization.py:104-122 | succeeds exactly for SCIPY_DE with settings, returning the optimizer's answer to the forwarded call; any other method is "not implemented" |
| Minimization.ScipyDeProblemSolves | gibbs/minimization.py:96-120 | a SCIPY_DE problem built without settings solves with the default settings for its bounds |
| Vectors.Normalize | gibbs/stability_analysis.py:28 | `x / x.sum()` keeps the length and sums to 1; for a non-negative vector every entry lies in [0, 1] |
| Vectors.NormalizeScale | gibbs/stability_analysis.py:49 | renormalisation is unchanged by a non-zero scale factor |
| Vectors.NormalizeFixed | gibbs/stability_analysis.py:49 | a vector that already sums to 1 is its own renormalisation |
| Stability.SearchSpaceMembership | gibbs/stability_analysis.py:15 | a point is in the search box exactly when it has one entry per component and each entry lies in [0, 1] |
| Stability.PenaltyFunction | gibbs/stability_analysis.py:67-69 | the penalty is non-negative, and zero exactly when the total equals the feasible limit |
| Stability.Tpd | gibbs/stability_analysis.py:56-57 | defined exactly when the fugacities have the composition's length and every ratio f_x/f_z is positive; a fugacity or feed of a different length from the point is a shape error (the broadcast `ValueError`), and with all lengths equal a non-positive or undefined ratio is non-finite |
| Stability.ReducedTpd | gibbs/stability_analysis.py:47-64 | a non-empty point whose length differs from the feed fugacities' is a shape error, even when its sum is zero; an empty point, or a zero-sum point of the right length, is non-finite; otherwise the value is the TPD of the renormalised point, with no penalty ever added |
| Stability.NormalizedNearSimplex | gibbs/stability_analysis.py:59-62 | the renormalised point always satisfies the feasibility guard, and its penalty is zero |
| Stability.NormalizedFeasible | gibbs/stability_analysis.py:50-54 | the unused feasibility conditions hold at every renormalised non-negative point |
| Stability.ReducedTpdScaleInvariant | gibbs/stability_analysis.py:47-64 | the objective is unchanged by any non-zero scaling of the trial point |
| Stability.TpdSumSelf | gibbs/stability_analysis.py:57 | the TPD sum of fugacities against themselves is zero |
| Stability.ReducedTpdAtFeed | gibbs/stability_analysis.py:47-64 | for a feed whose fractions sum to exactly 1, the objective at the feed itself is zero whenever it is defined |
| Stability.TpdRequest | gibbs/stability_analysis.py:14-26 | the optimizer call: the unit-box bounds, args `[model, P, T, f_z]`, popsize 25, recombination 0.9, display as requested, no polishing, other keywords left to SciPy |
| Stability.Classify | gibbs/stability_analysis.py:31-36 | a split exactly when the point is not close to the feed and the TPD is negative |
| Stability.StabilityTest | gibbs/stability_analysis.py:13-44 | a point whose length differs from the feed's is a shape error (the length test of `np.allclose` comes before the zero sum, which yields nan, not an exception); a point of the right length with a zero sum is non-finite; otherwise succeeds, reporting the optimizer's value, the renormalised point (which sums to 1) and the classification |
| Stability.StabilityCompositionOnSimplex | gibbs/stability_analysis.py:13-44 | when the optimizer keeps to the search box, the reported composition is on the simplex |
| Stability.SplitHasNegativeTpd | gibbs/stability_analysis.py:28-36 | when the optimizer reports the objective at its own point, a reported split has a composition away from the feed whose objective is the reported negative value |

## Left out

- Floating point is not modelled. All arithmetic is exact over the reals. `nan` and `inf`
  are `Failure(NonFinite)`, and the renormalised point sums to exactly 1.
- The stochastic search of `differential_evolution` is not modelled. The optimizer is a
  parameter. The lemmas about what it returns (staying in the box, reporting the objective
  at its own point) take those facts as hypotheses.
- The fluid model's fugacity is a parameter because the core calls it but does not define
  it.
- `np.sqrt` and `np.log` are parameters that carry only the facts the proofs use. Their
  values elsewhere (for example `log` of a non-positive ratio) are never reached: such a
  ratio is `Failure(NonFinite)`.
- The random state, worker pool and status display (`seed`, `workers`, `disp`) are only
  forwarded values. The shared `RandomState` is the constant `SharedRandomState`.
- numpy broadcasting of length-1 arrays is not modelled: operands of different lengths are
  a shape mismatch.
- Order of the validators: `Construct` and `ConstructAsWritten` run them in attrs attribute
  order (z, Tc, Pc, acentric_factor, bip).
- PengRobinson.CapitalAI: the division by (R·T)² is written as two divisions by R·T. This is equal over
  the reals.
- Vectors.Normalize: the division by the sum is written as scaling by its reciprocal. This
  is equal over the reals.
- CubicEos.Construct: uses the corrected critical-value validators, so it refuses instances
  with a critical temperature or pressure ≤ 0 that the source builds (`ConstructAsWritten`
  models the source's constructor). Every member that takes an instance (`Tr`, `Pr`, `M`,
  `Alpha`, `AI`, `BI`, `CapitalAI`, `CapitalBI`, `CapitalAIJ`, `AMix`, `BMix`) requires the
  corrected invariant `Valid`. The model says nothing about instances with Tc or Pc ≤ 0,
  where the source divides by zero or produces negative reduced values.
- CubicEos.Construct: the `bip` argument is assumed rectangular (a 2-D array). A ragged
  nested list is outside the model. Symmetry of the BIP matrix is not checked, as in the
  code.
- PengRobinson.CapitalAIJDiagonal: assumes every `A_i` is non-negative (true for Ω_a ≥ 0
  and P ≥ 0, by `CapitalAISign`). For negative entries the square root of their product
  does not give back `A_k`.
- Stability.ReducedTpd: the `feasible_conditions` value is computed but never used in the
  code. `FeasibleConditions` models it, and `NormalizedFeasible` shows it always holds after
  renormalisation. For an empty trial point numpy's `x.max()` raises; the model reports it
  as `NonFinite` instead, because an empty point has sum 0. For a zero-sum point of the
  feed's length the fugacity of the resulting `nan` point is not modelled: the result is
  `NonFinite` whatever length that fugacity has.
- PengRobinson.CombiningRule: the square root is applied to every product `A_i·A_j`, and
  numpy gives `nan` for a negative one. No error is modelled there because with Ω_a ≥ 0 all
  `A_i` share the sign of the pressure (`CapitalAISign`), so every product is non-negative.
- Stability.ReducedTpdAtFeed: needs the feed to sum to exactly 1. `_reduced_tpd` renormalises
  the trial point but not the feed fugacities, so for a feed accepted within 1e-5 of 1 the
  objective at the feed need not be zero.
- Minimization.DeRequest: a settings record whose `popsize` is `None` is forwarded as an
  omitted keyword, whereas the source would pass `popsize=None`. Post-init always fills
  `popsize`, so only a record changed after construction can reach this.
- `CubicEos.NComponents` (`n_components`), `Minimization.NumberOfDecisionVariables`
  (`_number_of_decision_variables`, which is `len(bounds)`), the constructor of the Peng–Robinson class, and
  the plain attribute records are data accessors only and carry no contract.

## Findings

| source | as written | input that shows it | evidently intended | confidence | as-written member | corrected member |
|---|---|---|---|---|---|---|
| gibbs/ceos.py:43 | `value.any() < 0` compares a bool with 0, which is never true, so the critical-temperature validator never rejects | Tc = `[-1.0]` is accepted | reject unless every critical temperature is greater than zero, as the error message says; zero is refused too because `Tr` divides by Tc | high, not executed | CubicEos.ValidateTcAsWritten, CubicEos.NegativeCriticalTemperatureAccepted, CubicEos.ConstructAsWritten | CubicEos.ValidateTc, CubicEos.Construct |
| gibbs/ceos.py:48 | `value.any() < 0` never holds, so the critical-pressure validator never rejects | Pc = `[-1.0]` is accepted | reject unless every critical pressure is greater than zero, as the error message says; zero is refused too because `Pr`, `a_i` and `b_i` divide by Pc | high, not executed | CubicEos.ValidatePcAsWritten, CubicEos.NegativeCriticalPressureAccepted, CubicEos.ConstructAsWritten | CubicEos.ValidatePc, CubicEos.Construct |

=== FILE: ceos.dfy ===
/** The cubic-equation-of-state base class of `gibbs/ceos.py`: its attribute validators,
    validated construction, and the reduced temperature and pressure. */
module CubicEos {
  import opened Results
  import opened Vectors

  /** The gas constant used throughout the module, J/(mol·K). */
  const R: real := 8.3144598

  /** Allowed distance of the overall composition's sum from 1. */
  const CompositionTolerance: real := 0.00001

  /** The `ValueError`s the module raises, told apart by their message, plus the two
      numpy outcomes that are not exceptions but leave no finite result. */
  datatype CeosError =
    | IncompatibleDimensions          // "Inputed values have incompatible dimensions."
    | BipNotSquare                    // "BIP's must be a 2-dim symmetric array."
    | BipIncompatibleDimension        // "BIP's have incompatible dimension with input data ..."
    | CompositionNotNormalised        // "Overall composition must have summation equal 1."
    | InvalidCriticalTemperature      // "Temperature must be greater than zero." (validator)
    | InvalidCriticalPressure         // "Pressure must be greater than zero." (validator)
    | NegativeTemperature             // "Temperature must be greater than zero." (Tr)
    | NegativePressure                // "Pressure must be greater than zero." (Pr)
    | NonFinite                       // a division by zero: numpy yields inf or nan
    | ShapeMismatch                   // `np.dot` of operands whose lengths differ

  /** The attributes of a `CEOS` instance: overall composition, critical temperatures and
      pressures, acentric factors and the binary interaction parameter matrix. */
  datatype Ceos = Ceos(z: Vector, tc: Vector, pc: Vector, acentricFactor: Vector, bip: Matrix)

  /** `check_input_dimensions`: four pairwise length comparisons. */
  function CheckInputDimensions(acentricFactor: Vector, tc: Vector, pc: Vector, z: Vector): (r: Outcome<CeosError>)
    ensures r.Pass? <==> |acentricFactor| == |tc| == |pc| == |z|
    ensures r.Fail? ==> r.error == IncompatibleDimensions
  {
    var acentricNotEqTc := |acentricFactor| != |tc|;
    var acentricNotEqPc := |acentricFactor| != |pc|;
    var pcNotEqTc := |tc| != |pc|;
    var pcNotEqZ := |pc| != |z|;
    if acentricNotEqTc || acentricNotEqPc || pcNotEqTc || pcNotEqZ then Fail(IncompatibleDimensions) else Pass
  }

  /** `check_bip`: the matrix must be square, then of the component count. Symmetry is
      not examined. */
  function CheckBip(bip: Matrix, tc: Vector): (r: Outcome<CeosError>)
    ensures r.Pass? <==> bip.rows == bip.cols == |tc|
    ensures r == Fail(BipNotSquare) <==> bip.rows != bip.cols
    ensures r == Fail(BipIncompatibleDimension) <==> bip.rows == bip.cols != |tc|
  {
    if bip.rows != bip.cols then Fail(BipNotSquare)
    else if bip.rows != |tc| then Fail(BipIncompatibleDimension)
    else Pass
  }

  /** `check_overall_composition`. */
  function CheckOverallComposition(z: Vector): (r: Outcome<CeosError>)
    ensures r.Pass? <==> 1.0 - CompositionTolerance <= Sum(z) <= 1.0 + CompositionTolerance
    ensures r.Fail? ==> r.error == CompositionNotNormalised
  {
    if !(1.0 - CompositionTolerance <= Sum(z) <= 1.0 + CompositionTolerance) then Fail(CompositionNotNormalised)
    else Pass
  }

  /** numpy's `ndarray.any()`: some entry is non-zero. */
  predicate AnyNonZero(v: Vector) {
    exists i :: 0 <= i < |v| && v[i] != 0.0
  }

  /** A Python `bool` used as a number. */
  function BoolAsInt(b: bool): int {
    if b then 1 else 0
  }

  /** `validate_Tc` as written: `value.any() < 0` compares a bool with zero, which is never
      true, so no critical temperature vector is ever rejected. */
  function ValidateTcAsWritten(tc: Vector): (r: Outcome<CeosError>)
    ensures r == Pass
  {
    if BoolAsInt(AnyNonZero(tc)) < 0 then Fail(InvalidCriticalTemperature) else Pass
  }

  /** `validate_Pc` as written: never rejects, for the same reason. */
  function ValidatePcAsWritten(pc: Vector): (r: Outcome<CeosError>)
    ensures r == Pass
  {
    if BoolAsInt(AnyNonZero(pc)) < 0 then Fail(InvalidCriticalPressure) else Pass
  }

  /** Every entry is strictly positive. */
  predicate AllPositive(v: Vector) {
    forall i :: 0 <= i < |v| ==> 0.0 < v[i]
  }

  /** `validate_Tc` as its message states it: every critical temperature must be greater
      than zero. */
  function ValidateTc(tc: Vector): (r: Outcome<CeosError>)
    ensures r.Pass? <==> AllPositive(tc)
    ensures r.Fail? ==> r.error == InvalidCriticalTemperature
  {
    if exists i :: 0 <= i < |tc| && tc[i] <= 0.0 then Fail(InvalidCriticalTemperature) else Pass
  }

  /** `validate_Pc` as its message states it: every critical pressure must be greater than zero. */
  function ValidatePc(pc: Vector): (r: Outcome<CeosError>)
    ensures r.Pass? <==> AllPositive(pc)
    ensures r.Fail? ==> r.error == InvalidCriticalPressure
  {
    if exists i :: 0 <= i < |pc| && pc[i] <= 0.0 then Fail(InvalidCriticalPressure) else Pass
  }

  /** A negative critical temperature passes the validator as written and fails the
      corrected one. */
  lemma NegativeCriticalTemperatureAccepted()
    ensures ValidateTcAsWritten([-1.0]) == Pass
    ensures ValidateTc([-1.0]) == Fail(InvalidCriticalTemperature)
  {
    assert [-1.0][0] <= 0.0;
  }

  /** A negative critical pressure passes the validator as written and fails the corrected one. */
  lemma NegativeCriticalPressureAccepted()
    ensures ValidatePcAsWritten([-1.0]) == Pass
    ensures ValidatePc([-1.0]) == Fail(InvalidCriticalPressure)
  {
    assert [-1.0][0] <= 0.0;
  }

  /** The invariant every constructed instance satisfies. */
  predicate Valid(m: Ceos) {
    && 1.0 - CompositionTolerance <= Sum(m.z) <= 1.0 + CompositionTolerance
    && AllPositive(m.tc)
    && AllPositive(m.pc)
    && |m.acentricFactor| == |m.tc| == |m.pc| == |m.z|
    && m.bip.Rectangular() && m.bip.rows == m.bip.cols == |m.tc|
  }

  /** The attrs-generated constructor with the corrected critical-value validators: the
      validators run in attribute order (z, Tc, Pc, acentric_factor, bip) and the first
      failure is raised. Every member of the model that takes an instance assumes `Valid`,
      the invariant this constructor establishes. */
  function Construct(z: Vector, tc: Vector, pc: Vector, acentricFactor: Vector, bip: Matrix): (r: Result<Ceos, CeosError>)
    requires bip.Rectangular()
    ensures r.Success? <==> Valid(Ceos(z, tc, pc, acentricFactor, bip))
    ensures r.Success? ==> r.value == Ceos(z, tc, pc, acentricFactor, bip)
    ensures CheckOverallComposition(z).Fail? ==> r == Failure(CompositionNotNormalised)
    ensures CheckOverallComposition(z).Pass? && !AllPositive(tc) ==> r == Failure(InvalidCriticalTemperature)
    ensures CheckOverallComposition(z).Pass? && AllPositive(tc) && !AllPositive(pc) ==> r == Failure(InvalidCriticalPressure)
    ensures CheckOverallComposition(z).Pass? && AllPositive(tc) && AllPositive(pc)
            && CheckInputDimensions(acentricFactor, tc, pc, z).Fail?
            ==> r == Failure(IncompatibleDimensions)
    ensures CheckOverallComposition(z).Pass? && AllPositive(tc) && AllPositive(pc)
            && CheckInputDimensions(acentricFactor, tc, pc, z).Pass? && CheckBip(bip, tc).Fail?
            ==> r == Failure(CheckBip(bip, tc).error)
    ensures r.Failure? && r.error == IncompatibleDimensions ==> |acentricFactor| != |tc| || |tc| != |pc| || |pc| != |z|
  {
    FirstFailure(z, tc, pc, acentricFactor, bip, ValidateTc(tc), ValidatePc(pc))
  }

  /** The attrs-generated constructor exactly as written: the critical-value validators never
      reject, so only the composition, the dimensions and the BIP shape are checked. */
  function ConstructAsWritten(z: Vector, tc: Vector, pc: Vector, acentricFactor: Vector, bip: Matrix): (r: Result<Ceos, CeosError>)
    requires bip.Rectangular()
    ensures r.Success? <==> && CheckOverallComposition(z).Pass?
                            && |acentricFactor| == |tc| == |pc| == |z|
                            && bip.rows == bip.cols == |tc|
    ensures r.Success? ==> r.value == Ceos(z, tc, pc, acentricFactor, bip)
    ensures CheckOverallComposition(z).Fail? ==> r == Failure(CompositionNotNormalised)
    ensures CheckOverallComposition(z).Pass? && CheckInputDimensions(acentricFactor, tc, pc, z).Fail?
            ==> r == Failure(IncompatibleDimensions)
    ensures CheckOverallComposition(z).Pass? && CheckInputDimensions(acentricFactor, tc, pc, z).Pass?
            && CheckBip(bip, tc).Fail?
            ==> r == Failure(CheckBip(bip, tc).error)
  {
    FirstFailure(z, tc, pc, acentricFactor, bip, ValidateTcAsWritten(tc), ValidatePcAsWritten(pc))
  }

  /** Runs the five validators in attribute order, given the outcomes of the two
      critical-value validators, and raises the first failure. */
  function FirstFailure(z: Vector, tc: Vector, pc: Vector, acentricFactor: Vector, bip: Matrix,
                        tcCheck: Outcome<CeosError>, pcCheck: Outcome<CeosError>): (r: Result<Ceos, CeosError>)
  {
    var checks := [
      CheckOverallComposition(z),
      tcCheck,
      pcCheck,
      CheckInputDimensions(acentricFactor, tc, pc, z),
      CheckBip(bip, tc)
    ];
    if checks[0].Fail? then Failure(checks[0].error)
    else if checks[1].Fail? then Failure(checks[1].error)
    else if checks[2].Fail? then Failure(checks[2].error)
    else if checks[3].Fail? then Failure(checks[3].error)
    else if checks[4].Fail? then Failure(checks[4].error)
    else Success(Ceos(z, tc, pc, acentricFactor, bip))
  }

  /** The constructor as written builds an instance with a negative critical temperature,
      which the corrected constructor refuses. */
  lemma NegativeCriticalTemperatureConstructed()
    ensures ConstructAsWritten([1.0], [-1.0], [1.0], [0.0], Matrix(1, 1, [[0.0]])).Success?
    ensures Construct([1.0], [-1.0], [1.0], [0.0], Matrix(1, 1, [[0.0]])) == Failure(InvalidCriticalTemperature)
  {
    assert Sum([1.0]) == 1.0;
    assert [-1.0][0] <= 0.0;
  }

  /** The corrected constructor only refuses more: whatever it builds, the constructor as
      written builds too. */
  lemma ConstructRefinesAsWritten(z: Vector, tc: Vector, pc: Vector, acentricFactor: Vector, bip: Matrix)
    requires bip.Rectangular()
    ensures Construct(z, tc, pc, acentricFactor, bip).Success? ==>
              ConstructAsWritten(z, tc, pc, acentricFactor, bip) == Construct(z, tc, pc, acentricFactor, bip)
  {
  }

  /** `n_components`. */
  function NComponents(m: Ceos): nat {
    |m.pc|
  }

  /** `Tr`: the reduced temperatures T / Tc, or an error for a negative temperature. */
  function Tr(m: Ceos, t: real): (r: Result<Vector, CeosError>)
    requires Valid(m)
    ensures r.Failure? <==> t < 0.0
    ensures r.Failure? ==> r.error == NegativeTemperature
    ensures r.Success? ==> |r.value| == NComponents(m)
    ensures r.Success? ==> forall i :: 0 <= i < |r.value| ==> r.value[i] * m.tc[i] == t
  {
    if t < 0.0 then Failure(NegativeTemperature)
    else Success(Quotients(t, m.tc))
  }

  /** `Pr`: the reduced pressures P / Pc, or an error for a negative pressure. */
  function Pr(m: Ceos, p: real): (r: Result<Vector, CeosError>)
    requires Valid(m)
    ensures r.Failure? <==> p < 0.0
    ensures r.Failure? ==> r.error == NegativePressure
    ensures r.Success? ==> |r.value| == NComponents(m)
    ensures r.Success? ==> forall i :: 0 <= i < |r.value| ==> r.value[i] * m.pc[i] == p
  {
    if p < 0.0 then Failure(NegativePressure)
    else Success(Quotients(p, m.pc))
  }

  /** `x / d` for a scalar `x` and a vector `d` of positive entries. */
  function Quotients(x: real, d: Vector): (r: Vector)
    requires AllPositive(d)
    ensures |r| == |d|
    ensures forall i :: 0 <= i < |d| ==> r[i] * d[i] == x
  {
    var r := seq(|d|, i requires 0 <= i < |d| => x / d[i]);
    assert forall i :: 0 <= i < |d| ==> r[i] * d[i] == x by {
      forall i | 0 <= i < |d|
        ensures r[i] * d[i] == x
      {
        QuotientTimesDivisor(x, d[i], r[i]);
      }
    }
    r
  }

  /** A reduced quantity is 1 exactly at the critical value. */
  lemma QuotientsAtOwnEntry(d: Vector, k: nat)
    requires AllPositive(d) && k < |d|
    ensures Quotients(d[k], d)[k] == 1.0
  {
    var q := Quotients(d[k], d)[k];
    assert q * d[k] == d[k];
    assert (q - 1.0) * d[k] == 0.0;
  }

  /** The reduced temperature at a component's own critical temperature is 1. */
  lemma TrAtCritical(m: Ceos, k: nat)
    requires Valid(m) && k < NComponents(m)
    ensures Tr(m, m.tc[k]).Success? && Tr(m, m.tc[k]).value[k] == 1.0
  {
    QuotientsAtOwnEntry(m.tc, k);
  }

  /** Every vector of one component fraction per entry that sums to exactly 1 is accepted;
      in particular the renormalisation of any non-zero-sum vector is. */
  lemma NormalizedCompositionAccepted(v: Vector)
    requires Sum(v) != 0.0
    ensures CheckOverallComposition(Normalize(v)).Pass?
  {
  }

  /** A pure component (a single 1 among zeros) is an accepted composition. */
  lemma PureComponentAccepted(n: nat, k: nat)
    requires k < n
    ensures CheckOverallComposition(Unit(n, k)).Pass?
  {
    SumSingle(Unit(n, k), k);
  }
}

=== FILE: minimization.dfy ===
/** The optimizer layer of `gibbs/minimization.py`: the differential-evolution settings
    record with its population-size heuristic, the optimization problem with its
    defaulting of settings, and the dispatch on the optimization method. SciPy's
    `differential_evolution` itself is not modelled: it is a parameter that receives
    the exact call the source makes. */
module Minimization {
  import opened Results

  /** `OptimizationMethod`. The enumeration has the single member `SCIPY_DE`; `Other`
      stands for any value that is not that member. */
  datatype OptimizationMethod = ScipyDe | Other(name: string)

  /** The `seed` attribute: the shared `RandomState` created once as the default,
      an integer seed, or some other `RandomState` instance. */
  datatype Seed = SharedRandomState | IntSeed(value: int) | RandomState(id: nat)

  /** `ScipyDifferentialEvolutionSettings`. `popsize` is `None` until post-init fills it. */
  datatype DeSettings = DeSettings(
    numberOfDecisionVariables: int,
    strategy: string,
    recombination: real,
    mutation: real,
    tol: real,
    seed: Seed,
    workers: int,
    disp: bool,
    polish: bool,
    popsize: Option<int>,
    populationSizeForEachVariable: int,
    totalPopulationSizeLimit: int)

  const DefaultStrategy: string := "best1bin"
  const DefaultRecombination: real := 0.3
  const DefaultMutation: real := 0.6
  const DefaultTol: real := 0.00001
  const DefaultWorkers: int := 1
  const DefaultPopulationSizeForEachVariable: int := 15
  const DefaultTotalPopulationSizeLimit: int := 100

  /** `_estimate_population_size`: `per_variable · n`, capped at `limit`. */
  function EstimatePopulationSize(perVariable: int, n: int, limit: int): (r: int)
    ensures r <= limit && r <= perVariable * n
    ensures r == limit || r == perVariable * n
  {
    var populationSize := perVariable * n;
    if populationSize > limit then limit else populationSize
  }

  /** The estimate of a settings record, from its own attributes. */
  function Estimate(s: DeSettings): int {
    EstimatePopulationSize(s.populationSizeForEachVariable, s.numberOfDecisionVariables, s.totalPopulationSizeLimit)
  }

  /** `__attrs_post_init__`: a missing `popsize` is replaced by the estimate; an explicit
      one, and every other attribute, is left as it was. */
  function PostInit(s: DeSettings): (r: DeSettings)
    ensures r.popsize.Some?
    ensures s.popsize.Some? ==> r == s
    ensures s.popsize.None? ==> r.popsize == Some(Estimate(s)) && r == s.(popsize := r.popsize)
  {
    if s.popsize.None? then s.(popsize := Some(Estimate(s))) else s
  }

  /** Post-init changes nothing the second time. */
  lemma PostInitIdempotent(s: DeSettings)
    ensures PostInit(PostInit(s)) == PostInit(s)
  {
  }

  /** `ScipyDifferentialEvolutionSettings(n)`: every attribute at its default. */
  function DefaultSettings(n: int): (r: DeSettings)
    ensures r.numberOfDecisionVariables == n
    ensures r.popsize == Some(EstimatePopulationSize(15, n, 100))
    ensures r.strategy == DefaultStrategy == "best1bin"
    ensures r.recombination == 0.3 && r.mutation == 0.6 && r.tol == 0.00001
    ensures r.populationSizeForEachVariable == 15 && r.totalPopulationSizeLimit == 100
    ensures 0.0 <= r.recombination <= 1.0
    ensures 0.0 <= r.mutation <= 2.0
    ensures r.seed == SharedRandomState && r.workers == 1 && !r.disp && r.polish
  {
    PostInit(DeSettings(n, DefaultStrategy, DefaultRecombination, DefaultMutation, DefaultTol,
                        SharedRandomState, DefaultWorkers, false, true, None,
                        DefaultPopulationSizeForEachVariable, DefaultTotalPopulationSizeLimit))
  }

  /** The estimate never exceeds the limit and is monotone in the number of variables
      when the per-variable size is non-negative. */
  lemma EstimateMonotone(perVariable: int, n1: int, n2: int, limit: int)
    requires 0 <= perVariable && n1 <= n2
    ensures EstimatePopulationSize(perVariable, n1, limit) <= EstimatePopulationSize(perVariable, n2, limit)
  {
    MultiplyMonotone(perVariable, n1, n2);
  }

  lemma MultiplyMonotone(k: int, a: int, b: int)
    requires 0 <= k && a <= b
    ensures k * a <= k * b
  {
    assert k * b - k * a == k * (b - a);
  }

  /** With the default sizes (15 per variable, at most 100) the estimate is `15·n` up
      to six variables and the cap of 100 from seven on. */
  lemma DefaultEstimate(n: nat)
    ensures n <= 6 ==> EstimatePopulationSize(15, n, 100) == 15 * n
    ensures 7 <= n ==> EstimatePopulationSize(15, n, 100) == 100
  {
    if 7 <= n {
      MultiplyMonotone(15, 7, n);
    }
  }

  /** One search interval `(low, high)`. */
  type Bound = (real, real)

  /** `OptimizationProblem`. The objective is any value of type `Obj` (the function
      handed to the optimizer) and the extra arguments are of type `Arg`. */
  datatype Problem<Obj, Arg> = Problem(
    objective: Obj,
    bounds: seq<Bound>,
    args: seq<Arg>,
    optimizationMethod: OptimizationMethod,
    solverArgs: Option<DeSettings>)

  /** `_number_of_decision_variables`. */
  function NumberOfDecisionVariables<Obj, Arg>(p: Problem<Obj, Arg>): nat {
    |p.bounds|
  }

  /** `OptimizationProblem.__attrs_post_init__`: for `SCIPY_DE` without settings, the default
      settings for `len(bounds)` variables; otherwise the problem is left alone. */
  function ProblemPostInit<Obj, Arg>(p: Problem<Obj, Arg>): (r: Problem<Obj, Arg>)
    ensures r.objective == p.objective && r.bounds == p.bounds && r.args == p.args && r.optimizationMethod == p.optimizationMethod
    ensures p.solverArgs.Some? ==> r.solverArgs == p.solverArgs
    ensures p.optimizationMethod == ScipyDe && p.solverArgs.None? ==> r.solverArgs == Some(DefaultSettings(|p.bounds|))
    ensures p.optimizationMethod != ScipyDe ==> r.solverArgs == p.solverArgs
  {
    if p.optimizationMethod == ScipyDe && p.solverArgs.None? then
      p.(solverArgs := Some(DefaultSettings(NumberOfDecisionVariables(p))))
    else p
  }

  /** After post-init a `SCIPY_DE` problem always has settings, and post-init is idempotent. */
  lemma ProblemPostInitSettles<Obj, Arg>(p: Problem<Obj, Arg>)
    ensures p.optimizationMethod == ScipyDe ==> ProblemPostInit(p).solverArgs.Some?
    ensures ProblemPostInit(ProblemPostInit(p)) == ProblemPostInit(p)
  {
  }

  /** The keyword arguments of one `differential_evolution` call. `None` means the
      caller did not pass the keyword, so SciPy's own default applies. */
  datatype DeCall<Obj, Arg> = DeCall(
    objective: Obj,
    bounds: seq<Bound>,
    args: seq<Arg>,
    strategy: Option<string>,
    popsize: Option<int>,
    recombination: Option<real>,
    mutation: Option<real>,
    tol: Option<real>,
    disp: Option<bool>,
    polish: Option<bool>,
    seed: Option<Seed>,
    workers: Option<int>)

  /** What the optimizer hands back: the best point found and its objective value. */
  datatype OptimizeResult = OptimizeResult(x: seq<real>, fun: real)

  datatype MinimizationError =
    | NotImplemented
      /** `self.solver_args` is `None` when the call is built: an attribute error. */
    | MissingSettings

  /** The call `solve_minimization` makes for `SCIPY_DE` with settings `s`. */
  function DeRequest<Obj, Arg>(p: Problem<Obj, Arg>, s: DeSettings): (r: DeCall<Obj, Arg>)
    ensures r.objective == p.objective && r.bounds == p.bounds && r.args == p.args
    ensures SettingsOf(r, s.numberOfDecisionVariables, s.populationSizeForEachVariable, s.totalPopulationSizeLimit) == Some(s)
  {
    DeCall(p.objective, p.bounds, p.args, Some(s.strategy), s.popsize, Some(s.recombination),
           Some(s.mutation), Some(s.tol), Some(s.disp), Some(s.polish), Some(s.seed), Some(s.workers))
  }

  /** Reads a settings record back out of a call, given the three attributes that are
      not forwarded; `None` if some forwarded keyword is missing. */
  function SettingsOf<Obj, Arg>(c: DeCall<Obj, Arg>, n: int, perVariable: int, limit: int): Option<DeSettings> {
    if c.strategy.Some? && c.recombination.Some? && c.mutation.Some? && c.tol.Some? && c.disp.Some?
       && c.polish.Some? && c.seed.Some? && c.workers.Some?
    then Some(DeSettings(n, c.strategy.value, c.recombination.value, c.mutation.value, c.tol.value,
                         c.seed.value, c.workers.value, c.disp.value, c.polish.value, c.popsize,
                         perVariable, limit))
    else None
  }

  /** `solve_minimization`: `SCIPY_DE` runs the optimizer on the forwarded call; any
      other method raises `NotImplementedError`. */
  function SolveMinimization<Obj, Arg>(p: Problem<Obj, Arg>, de: DeCall<Obj, Arg> -> OptimizeResult)
    : (r: Result<OptimizeResult, MinimizationError>)
    ensures r.Success? <==> p.optimizationMethod == ScipyDe && p.solverArgs.Some?
    ensures p.optimizationMethod != ScipyDe ==> r == Failure(NotImplemented)
    ensures r.Success? ==> r.value == de(DeRequest(p, p.solverArgs.value))
  {
    if p.optimizationMethod == ScipyDe then
      match p.solverArgs
      case None => Failure(MissingSettings)
      case Some(s) => Success(de(DeRequest(p, s)))
    else Failure(NotImplemented)
  }

  /** A problem built through post-init never fails for `SCIPY_DE`: the default settings
      for `len(bounds)` variables reach the optimizer. */
  lemma ScipyDeProblemSolves<Obj, Arg>(p: Problem<Obj, Arg>, de: DeCall<Obj, Arg> -> OptimizeResult)
    requires p.optimizationMethod == ScipyDe && p.solverArgs.None?
    ensures SolveMinimization(ProblemPostInit(p), de)
            == Success(de(DeRequest(p, DefaultSettings(|p.bounds|))))
  {
  }
}

=== FILE: numerics.dfy ===
/** The transcendental functions the core borrows from numpy (`np.sqrt`, `np.log`).
    They are not computed here: a `Math` value carries them, and the two predicates
    below state the only facts about them the model relies on. */
module Numerics {

  datatype Math = Math(sqrt: real -> real, ln: real -> real)

  /** `sqrt` is the non-negative square root on the non-negative reals. */
  ghost predicate SqrtSound(m: Math) {
    forall x :: 0.0 <= x ==> 0.0 <= m.sqrt(x) && m.sqrt(x) * m.sqrt(x) == x
  }

  /** `ln(1) = 0`. */
  predicate LnSound(m: Math) {
    m.ln(1.0) == 0.0
  }

  /** The square root of the square of a non-negative number is that number. */
  lemma SqrtOfSquare(m: Math, x: real, xx: real)
    requires SqrtSound(m) && 0.0 <= x && xx == x * x
    ensures m.sqrt(xx) == x
  {
    var s := m.sqrt(xx);
    assert 0.0 <= s && s * s == xx;
    SquareRootUnique(s, x);
  }

  lemma SquareRootUnique(s: real, x: real)
    requires 0.0 <= s && 0.0 <= x && s * s == x * x
    ensures s == x
  {
    if s < x {
      SquareStrictlyIncreasing(s, x);
    } else if x < s {
      SquareStrictlyIncreasing(x, s);
    }
  }

  lemma SquareStrictlyIncreasing(lo: real, hi: real)
    requires 0.0 <= lo < hi
    ensures lo * lo < hi * hi
  {
    var d, e := hi - lo, hi + lo;
    assert 0.0 < d && 0.0 < e;
    assert 0.0 < d * e;
    assert d * e == hi * hi - lo * lo;
  }

  lemma ProductNonNegative(x: real, y: real)
    requires 0.0 <= x && 0.0 <= y
    ensures 0.0 <= x * y
  {
  }

  /** Sign facts of a product named `xy`; with `x == y` they are the facts of a square. */
  lemma ProductFacts(x: real, y: real, xy: real)
    requires 0.0 <= x && 0.0 <= y && xy == x * y
    ensures 0.0 <= xy
    ensures xy == 0.0 <==> x == 0.0 || y == 0.0
  {
    if 0.0 < x && 0.0 < y {
      assert 0.0 < x * y;
    }
  }

  lemma SqrtOfOne(m: Math)
    requires SqrtSound(m)
    ensures m.sqrt(1.0) == 1.0
  {
    SqrtOfSquare(m, 1.0, 1.0);
  }
}

=== FILE: peng_robinson.dfy ===
/** The Peng-Robinson (1978) parameter layer of `gibbs/ceos.py`: the acentric-factor shape
    factor `m`, the temperature correction `alpha`, the pure-component parameters `a_i` and
    `b_i`, their dimensionless forms `A_i` and `B_i`, and the mixing rules. */
module PengRobinson {
  import opened Results
  import opened Vectors
  import opened Numerics
  import opened CubicEos

  /** A `PengRobinson78` instance: the validated base attributes and the three EOS
      constants, which are plain attributes with defaults and no validator. */
  datatype PengRobinson78 = PengRobinson78(eos: Ceos, zc: real, omegaA: real, omegaB: real)

  /** The instance built with the default constants. */
  function WithDefaults(eos: Ceos): (r: PengRobinson78)
    ensures r.eos == eos
    ensures 0.0 < r.omegaB < r.zc < r.omegaA
  {
    PengRobinson78(eos, 0.3074, 0.45724, 0.07780)
  }

  predicate Valid(pr: PengRobinson78) {
    CubicEos.Valid(pr.eos)
  }

  function N(pr: PengRobinson78): nat {
    NComponents(pr.eos)
  }

  /** Boundary of the two branches of `m`: the cubic branch is taken strictly above it. */
  const AcentricBranchPoint: real := 0.49

  /** The quadratic branch of `m` (`m_low`). */
  function MLow(w: real): real {
    0.37464 + 1.54226 * w - 0.26992 * w * w
  }

  /** The cubic branch of `m` (`m_high`). */
  function MHigh(w: real): real {
    0.3796 + 1.485 * w - 0.1644 * w * w + 0.01667 * w * w * w
  }

  /** `m` of one component: `np.where(omega > 0.49, m_high, m_low)` at one entry. */
  function ShapeFactor(w: real): (r: real)
    ensures w <= AcentricBranchPoint ==> r == MLow(w)
    ensures AcentricBranchPoint < w ==> r == MHigh(w)
  {
    if w > AcentricBranchPoint then MHigh(w) else MLow(w)
  }

  /** The property `m`: one shape factor per component, each choosing its own branch. */
  function M(pr: PengRobinson78): (r: Vector)
    requires Valid(pr)
    ensures |r| == N(pr)
    ensures forall i :: 0 <= i < |r| ==> r[i] == ShapeFactor(pr.eos.acentricFactor[i])
  {
    seq(N(pr), i requires 0 <= i < N(pr) => ShapeFactor(pr.eos.acentricFactor[i]))
  }

  /** `m` is strictly increasing in the acentric factor, across the branch switch too:
      the cubic branch starts above where the quadratic branch ends. */
  lemma ShapeFactorIncreasing(a: real, b: real)
    requires a < b
    ensures ShapeFactor(a) < ShapeFactor(b)
  {
    if b <= AcentricBranchPoint {
      MLowIncreasing(a, b);
    } else if AcentricBranchPoint < a {
      MHighIncreasing(a, b);
    } else {
      if a < AcentricBranchPoint {
        MLowIncreasing(a, AcentricBranchPoint);
      }
      assert MLow(AcentricBranchPoint) < MHigh(AcentricBranchPoint);
      MHighIncreasing(AcentricBranchPoint, b);
    }
  }

  /** For a non-negative acentric factor `m` is at least its value at zero. */
  lemma ShapeFactorPositive(w: real)
    requires 0.0 <= w
    ensures 0.37464 <= ShapeFactor(w)
  {
    if 0.0 < w {
      ShapeFactorIncreasing(0.0, w);
    }
  }

  lemma MLowIncreasing(a: real, b: real)
    requires a < b <= AcentricBranchPoint
    ensures MLow(a) < MLow(b)
  {
    var d, f := b - a, 1.54226 - 0.26992 * (a + b);
    assert 0.0 < f;
    assert MLow(b) - MLow(a) == d * f;
    assert 0.0 < d * f;
  }

  lemma MHighIncreasing(a: real, b: real)
    requires AcentricBranchPoint <= a < b
    ensures MHigh(a) < MHigh(b)
  {
    var d := b - a;
    var f := 1.485 - 0.1644 * (a + b) + 0.01667 * (a * a + a * b + b * b);
    CubicSlopePositive(a, b);
    assert MHigh(b) - MHigh(a) == d * f;
    assert 0.0 < d * f;
  }

  /** The divided difference of the cubic branch is positive for non-negative arguments. */
  lemma CubicSlopePositive(a: real, b: real)
    requires 0.0 <= a && 0.0 <= b
    ensures 0.0 < 1.485 - 0.1644 * (a + b) + 0.01667 * (a * a + a * b + b * b)
  {
    var s := a + b;
    assert a * a + a * b + b * b == 0.75 * s * s + 0.25 * (a - b) * (a - b);
    assert 0.0 <= (a - b) * (a - b);
    var k := 0.01667 * 0.75;
    var s0 := 0.1644 / (2.0 * k);
    var g := 1.485 - 0.1644 * s + k * s * s;
    assert g == k * (s - s0) * (s - s0) + (1.485 - k * s0 * s0);
    assert 0.0 < 1.485 - k * s0 * s0;
    assert 0.0 <= k * (s - s0) * (s - s0);
  }

  /** `(1 + m·(1 − s))²` for one component, `s` being the square root of its reduced temperature. */
  function AlphaTerm(m: real, s: real): (r: real)
    ensures 0.0 <= r
  {
    var u := 1.0 + m * (1.0 - s);
    SquareNonNegative(u);
    u * u
  }

  lemma SquareNonNegative(u: real)
    ensures 0.0 <= u * u
  {
    if u < 0.0 {
      assert u * u == (-u) * (-u);
    }
  }

  /** `alpha(T)`: the temperature correction of the attraction parameter. It is raised
      from `Tr`, so a negative temperature is an error. */
  function Alpha(pr: PengRobinson78, math: Math, t: real): (r: Result<Vector, CeosError>)
    requires Valid(pr)
    ensures r.Failure? <==> t < 0.0
    ensures r.Failure? ==> r.error == NegativeTemperature
    ensures r.Success? ==> |r.value| == N(pr) && NonNegative(r.value)
  {
    match Tr(pr.eos, t)
    case Failure(e) => Failure(e)
    case Success(tr) =>
      var m := M(pr);
      var alpha := seq(N(pr), i requires 0 <= i < N(pr) => AlphaTerm(m[i], math.sqrt(tr[i])));
      assert NonNegative(alpha) by {
        forall i | 0 <= i < N(pr)
          ensures 0.0 <= alpha[i]
        {
          assert alpha[i] == AlphaTerm(m[i], math.sqrt(tr[i]));
        }
      }
      Success(alpha)
  }

  /** At a component's own critical temperature its `alpha` is exactly 1. */
  lemma AlphaAtCritical(pr: PengRobinson78, math: Math, k: nat)
    requires Valid(pr) && SqrtSound(math) && k < N(pr)
    ensures Alpha(pr, math, pr.eos.tc[k]).Success?
    ensures Alpha(pr, math, pr.eos.tc[k]).value[k] == 1.0
  {
    TrAtCritical(pr.eos, k);
    SqrtOfOne(math);
    var m := M(pr)[k];
    assert 1.0 + m * (1.0 - 1.0) == 1.0;
  }

  /** Ω_a·R²·Tc²/Pc: the attraction parameter of component `i` at its critical point. */
  function CriticalAttraction(pr: PengRobinson78, i: nat): real
    requires Valid(pr) && i < N(pr)
  {
    pr.omegaA * (R * R) * pr.eos.tc[i] * pr.eos.tc[i] / pr.eos.pc[i]
  }

  lemma CriticalAttractionSign(pr: PengRobinson78, i: nat)
    requires Valid(pr) && i < N(pr) && 0.0 <= pr.omegaA
    ensures 0.0 <= CriticalAttraction(pr, i)
  {
    var tc, pc := pr.eos.tc[i], pr.eos.pc[i];
    assert 0.0 <= pr.omegaA * (R * R);
    assert 0.0 <= pr.omegaA * (R * R) * tc;
    assert 0.0 <= pr.omegaA * (R * R) * tc * tc;
  }

  /** `a_i(T)`: the attraction parameter of each component. */
  function AI(pr: PengRobinson78, math: Math, t: real): (r: Result<Vector, CeosError>)
    requires Valid(pr)
    ensures r.Failure? <==> t < 0.0
    ensures r.Failure? ==> r.error == NegativeTemperature
    ensures r.Success? ==> |r.value| == N(pr)
    ensures r.Success? && 0.0 <= pr.omegaA ==> NonNegative(r.value)
  {
    match Alpha(pr, math, t)
    case Failure(e) => Failure(e)
    case Success(alpha) =>
      var a := seq(N(pr), i requires 0 <= i < N(pr) => CriticalAttraction(pr, i) * alpha[i]);
      assert 0.0 <= pr.omegaA ==> NonNegative(a) by {
        if 0.0 <= pr.omegaA {
          forall i | 0 <= i < N(pr)
            ensures 0.0 <= a[i]
          {
            CriticalAttractionSign(pr, i);
            ProductNonNegative(CriticalAttraction(pr, i), alpha[i]);
          }
        }
      }
      Success(a)
  }

  /** At a component's critical temperature `a_i` equals its critical attraction Ω_a·R²·Tc²/Pc. */
  lemma AIAtCritical(pr: PengRobinson78, math: Math, k: nat)
    requires Valid(pr) && SqrtSound(math) && k < N(pr)
    ensures AI(pr, math, pr.eos.tc[k]).Success?
    ensures AI(pr, math, pr.eos.tc[k]).value[k] == CriticalAttraction(pr, k)
  {
    AlphaAtCritical(pr, math, k);
  }

  /** `b_i`: the covolume parameter Ω_b·R·Tc/Pc of each component. */
  function BI(pr: PengRobinson78): (r: Vector)
    requires Valid(pr)
    ensures |r| == N(pr)
    ensures 0.0 < pr.omegaB ==> AllPositive(r)
  {
    var b := seq(N(pr), i requires 0 <= i < N(pr) => pr.omegaB * R * pr.eos.tc[i] / pr.eos.pc[i]);
    assert 0.0 < pr.omegaB ==> AllPositive(b) by {
      if 0.0 < pr.omegaB {
        forall i | 0 <= i < N(pr)
          ensures 0.0 < b[i]
        {
          PositiveQuotient(pr.omegaB * R, pr.eos.tc[i], pr.eos.pc[i]);
        }
      }
    }
    b
  }

  lemma PositiveQuotient(k: real, t: real, p: real)
    requires 0.0 < k && 0.0 < t && 0.0 < p
    ensures 0.0 < k * t / p
  {
    assert 0.0 < k * t;
  }

  /** `A_i(P, T) = a_i(T)·P / (R·T)²`. A negative temperature is raised by `alpha`; a zero
      temperature divides by zero. The division by `(R·T)²` is written as two divisions
      by `R·T`, which is the same over the reals. */
  function CapitalAI(pr: PengRobinson78, math: Math, p: real, t: real): (r: Result<Vector, CeosError>)
    requires Valid(pr)
    ensures r.Success? <==> 0.0 < t
    ensures t < 0.0 ==> r == Failure(NegativeTemperature)
    ensures t == 0.0 ==> r == Failure(NonFinite)
    ensures r.Success? ==> |r.value| == N(pr)
    ensures r.Success? ==> forall i :: 0 <= i < N(pr) ==> r.value[i] * (R * t) * (R * t) == AI(pr, math, t).value[i] * p
  {
    match AI(pr, math, t)
    case Failure(e) => Failure(e)
    case Success(a) =>
      if t == 0.0 then Failure(NonFinite)
      else
        var v := seq(N(pr), i requires 0 <= i < N(pr) => Reduced(a[i], p, t));
        assert forall i :: 0 <= i < N(pr) ==> v[i] * (R * t) * (R * t) == a[i] * p by {
          forall i | 0 <= i < N(pr)
            ensures v[i] * (R * t) * (R * t) == a[i] * p
          {
            ReducedTimesSquare(a[i], p, t, v[i]);
          }
        }
        Success(v)
  }

  /** `a·P / (R·T)²` for one component. */
  function Reduced(a: real, p: real, t: real): real
    requires t != 0.0
  {
    a * p / (R * t) / (R * t)
  }

  /** Multiplying back by R·T twice undoes `Reduced`. */
  lemma ReducedTimesSquare(a: real, p: real, t: real, q: real)
    requires t != 0.0 && q == Reduced(a, p, t)
    ensures q * (R * t) * (R * t) == a * p
  {
    var d := R * t;
    var h := a * p / d;
    QuotientTimesDivisor(h, d, q);
    QuotientTimesDivisor(a * p, d, h);
  }

  lemma ReducedSign(a: real, p: real, t: real)
    requires 0.0 <= a && 0.0 < t
    ensures SameSignAs(Reduced(a, p, t), p)
  {
    assert 0.0 < R * t;
    ScaledSign(a, p, R * t);
    DividedSign(a * p / (R * t), p, R * t);
  }

  /** With Ω_a ≥ 0 every `A_i` is zero or carries the sign of the pressure: non-negative
      for `P ≥ 0`, non-positive for `P ≤ 0`. */
  lemma CapitalAISign(pr: PengRobinson78, math: Math, p: real, t: real, a: Vector)
    requires Valid(pr) && 0.0 <= pr.omegaA
    requires CapitalAI(pr, math, p, t) == Success(a)
    ensures forall i :: 0 <= i < |a| ==> SameSignAs(a[i], p)
  {
    var ai := AI(pr, math, t).value;
    forall i | 0 <= i < |a|
      ensures SameSignAs(a[i], p)
    {
      ReducedSign(ai[i], p, t);
    }
  }

  /** `x` is zero or has the sign of `p`. */
  predicate SameSignAs(x: real, p: real) {
    (0.0 <= p ==> 0.0 <= x) && (p <= 0.0 ==> x <= 0.0)
  }

  lemma DividedSign(x: real, p: real, d: real)
    requires SameSignAs(x, p) && 0.0 < d
    ensures SameSignAs(x / d, p)
  {
  }

  lemma ScaledSign(a: real, p: real, d: real)
    requires 0.0 <= a && 0.0 < d
    ensures SameSignAs(a * p / d, p)
  {
    if 0.0 <= p {
      assert 0.0 <= a * p;
    } else {
      assert a * p <= 0.0;
    }
  }

  /** `B_i(P, T) = b_i·P / (R·T)`. No temperature check: only a zero temperature fails. */
  function CapitalBI(pr: PengRobinson78, p: real, t: real): (r: Result<Vector, CeosError>)
    requires Valid(pr)
    ensures r.Success? <==> t != 0.0
    ensures r.Failure? ==> r.error == NonFinite
    ensures r.Success? ==> |r.value| == N(pr)
    ensures r.Success? ==> forall i :: 0 <= i < N(pr) ==> r.value[i] * (R * t) == BI(pr)[i] * p
  {
    if t == 0.0 then Failure(NonFinite)
    else
      var b := BI(pr);
      var v := seq(N(pr), i requires 0 <= i < N(pr) => b[i] * p / (R * t));
      assert forall i :: 0 <= i < N(pr) ==> v[i] * (R * t) == b[i] * p by {
        forall i | 0 <= i < N(pr)
          ensures v[i] * (R * t) == b[i] * p
        {
          QuotientTimesDivisor(b[i] * p, R * t, v[i]);
        }
      }
      Success(v)
  }

  /** `A_ij(P, T) = (1 − bip) · sqrt(outer(A, A))`: the combining rule. */
  function CapitalAIJ(pr: PengRobinson78, math: Math, p: real, t: real): (r: Result<Matrix, CeosError>)
    requires Valid(pr)
    ensures r.Success? <==> 0.0 < t
    ensures t < 0.0 ==> r == Failure(NegativeTemperature)
    ensures t == 0.0 ==> r == Failure(NonFinite)
    ensures r.Success? ==> r.value.Rectangular() && r.value.rows == r.value.cols == N(pr)
    ensures r.Success? && pr.eos.bip.Symmetric() ==> r.value.Symmetric()
    ensures r.Success? ==> r.value == CombiningRule(math, CapitalAI(pr, math, p, t).value, pr.eos.bip)
  {
    match CapitalAI(pr, math, p, t)
    case Failure(e) => Failure(e)
    case Success(a) => Success(CombiningRule(math, a, pr.eos.bip))
  }

  /** `(1 − bip) · sqrt(outer(a, a))` entry by entry. */
  function CombiningRule(math: Math, a: Vector, bip: Matrix): (r: Matrix)
    requires bip.Rectangular() && bip.rows == bip.cols == |a|
    ensures r.Rectangular() && r.rows == r.cols == |a|
    ensures forall i, j :: 0 <= i < |a| && 0 <= j < |a| ==>
              r.cells[i][j] == Cell(math, a[i], a[j], bip.cells[i][j])
    ensures bip.Symmetric() ==> r.Symmetric()
  {
    var n := |a|;
    var cells := seq(n, i requires 0 <= i < n => CombinedRow(math, a, bip, i));
    var m := Matrix(n, n, cells);
    assert bip.Symmetric() ==> m.Symmetric() by {
      if bip.Symmetric() {
        forall i, j | 0 <= i < n && 0 <= j < n
          ensures cells[i][j] == cells[j][i]
        {
          assert a[i] * a[j] == a[j] * a[i];
          assert Cell(math, a[i], a[j], bip.cells[i][j]) == Cell(math, a[j], a[i], bip.cells[j][i]);
        }
      }
    }
    m
  }

  /** Row `i` of the combining rule. */
  function CombinedRow(math: Math, a: Vector, bip: Matrix, i: nat): (row: Vector)
    requires bip.Rectangular() && bip.rows == bip.cols == |a| && i < |a|
    ensures |row| == |a|
    ensures forall j :: 0 <= j < |a| ==> row[j] == Cell(math, a[i], a[j], bip.cells[i][j])
  {
    seq(|a|, j requires 0 <= j < |a| => Cell(math, a[i], a[j], bip.cells[i][j]))
  }

  /** One entry `(1 − k_ij)·sqrt(a_i·a_j)` of the combining rule. */
  function Cell(math: Math, ai: real, aj: real, kij: real): real {
    (1.0 - kij) * math.sqrt(ai * aj)
  }

  /** The combining rule leaves `(1 − bip_kk)·a_k` on the diagonal of a non-negative `a`. */
  lemma CombiningRuleDiagonal(math: Math, a: Vector, bip: Matrix, k: nat)
    requires SqrtSound(math) && NonNegative(a) && bip.Rectangular() && bip.rows == bip.cols == |a| && k < |a|
    ensures CombiningRule(math, a, bip).cells[k][k] == (1.0 - bip.cells[k][k]) * a[k]
  {
    SqrtOfSquare(math, a[k], a[k] * a[k]);
  }

  /** `A_mix(P, T, z) = z · (z · A_ij)`: the quadratic mixing rule over any trial composition.
      A negative temperature raises while `A_ij` is computed. A zero temperature raises
      nothing: it leaves `A_ij` full of `inf`/`nan`, so a composition of the wrong length
      still reaches `np.dot` and raises the shape error there. */
  function AMix(pr: PengRobinson78, math: Math, p: real, t: real, z: Vector): (r: Result<real, CeosError>)
    requires Valid(pr)
    ensures r.Success? <==> 0.0 < t && |z| == N(pr)
    ensures t < 0.0 ==> r == Failure(NegativeTemperature)
    ensures 0.0 <= t && |z| != N(pr) ==> r == Failure(ShapeMismatch)
    ensures t == 0.0 && |z| == N(pr) ==> r == Failure(NonFinite)
    ensures r.Success? ==> r.value == QuadraticForm(z, CapitalAIJ(pr, math, p, t).value)
  {
    var aij := CapitalAIJ(pr, math, p, t);
    if aij.Failure? && aij.error != NonFinite then Failure(aij.error)
    else if |z| != N(pr) then Failure(ShapeMismatch)
    else if aij.Failure? then Failure(NonFinite)
    else Success(Dot(z, VecMat(z, aij.value)))
  }

  /** `B_mix(P, T, z) = z · B`: the linear mixing rule over any trial composition. `B_i`
      raises nothing, so a composition of the wrong length always meets the shape error of
      `np.dot`, and only then does a zero temperature show as a non-finite value. */
  function BMix(pr: PengRobinson78, p: real, t: real, z: Vector): (r: Result<real, CeosError>)
    requires Valid(pr)
    ensures r.Success? <==> t != 0.0 && |z| == N(pr)
    ensures |z| != N(pr) ==> r == Failure(ShapeMismatch)
    ensures t == 0.0 && |z| == N(pr) ==> r == Failure(NonFinite)
    ensures r.Success? ==> r.value == Dot(z, CapitalBI(pr, p, t).value)
  {
    if |z| != N(pr) then Failure(ShapeMismatch)
    else
      match CapitalBI(pr, p, t)
      case Failure(e) => Failure(e)
      case Success(b) => Success(Dot(z, b))
  }

  /** Where every `A_i` is non-negative, the diagonal of `A_ij` is `(1 − bip_kk)·A_k`. */
  lemma CapitalAIJDiagonal(pr: PengRobinson78, math: Math, p: real, t: real, a: Vector, k: nat)
    requires Valid(pr) && SqrtSound(math) && k < N(pr)
    requires CapitalAI(pr, math, p, t) == Success(a) && NonNegative(a)
    ensures CapitalAIJ(pr, math, p, t).Success?
    ensures CapitalAIJ(pr, math, p, t).value.cells[k][k] == (1.0 - pr.eos.bip.cells[k][k]) * a[k]
  {
    CombiningRuleDiagonal(math, a, pr.eos.bip, k);
  }

  /** For a pure component `A_mix` is that component's own `(1 − bip_kk)·A_k`. */
  lemma AMixPureComponent(pr: PengRobinson78, math: Math, p: real, t: real, a: Vector, k: nat)
    requires Valid(pr) && SqrtSound(math) && 0.0 <= p && 0.0 <= pr.omegaA && k < N(pr)
    requires CapitalAI(pr, math, p, t) == Success(a)
    ensures AMix(pr, math, p, t, Unit(N(pr), k)) == Success((1.0 - pr.eos.bip.cells[k][k]) * a[k])
  {
    assert NonNegative(a) by {
      CapitalAISign(pr, math, p, t, a);
    }
    QuadraticFormUnit(CapitalAIJ(pr, math, p, t).value, k);
    CapitalAIJDiagonal(pr, math, p, t, a, k);
  }

  /** `A_mix` is homogeneous of degree two in the composition. */
  lemma AMixScale(pr: PengRobinson78, math: Math, p: real, t: real, aij: Matrix, x: Vector, c: real)
    requires Valid(pr) && CapitalAIJ(pr, math, p, t) == Success(aij) && |x| == N(pr)
    ensures AMix(pr, math, p, t, Scale(c, x)) == Success(c * (c * QuadraticForm(x, aij)))
  {
    QuadraticFormScale(c, x, aij);
  }

  /** For a pure component `B_mix` is that component's `B_k`. */
  lemma BMixPureComponent(pr: PengRobinson78, p: real, t: real, k: nat)
    requires Valid(pr) && t != 0.0 && k < N(pr)
    ensures BMix(pr, p, t, Unit(N(pr), k)) == Success(CapitalBI(pr, p, t).value[k])
  {
    DotUnit(k, CapitalBI(pr, p, t).value);
  }

  /** `B_mix` is homogeneous of degree one in the composition. */
  lemma BMixScale(pr: PengRobinson78, p: real, t: real, x: Vector, c: real)
    requires Valid(pr) && t != 0.0 && |x| == N(pr)
    ensures BMix(pr, p, t, Scale(c, x)).Success?
    ensures BMix(pr, p, t, Scale(c, x)).value == c * BMix(pr, p, t, x).value
  {
    DotScaleLeft(c, x, CapitalBI(pr, p, t).value);
  }

  /** `B_mix` is additive in the composition. */
  lemma BMixAdd(pr: PengRobinson78, p: real, t: real, x: Vector, y: Vector)
    requires Valid(pr) && t != 0.0 && |x| == |y| == N(pr)
    ensures BMix(pr, p, t, Add(x, y)).Success?
    ensures BMix(pr, p, t, Add(x, y)).value == BMix(pr, p, t, x).value + BMix(pr, p, t, y).value
  {
    DotAddLeft(x, y, CapitalBI(pr, p, t).value);
  }
}

=== FILE: results.dfy ===
/** Failure-carrying values used throughout the model in place of Python exceptions
    and of the IEEE non-finite values numpy produces. */
module Results {

  /** A value that may be absent. */
  datatype Option<+T> = None | Some(value: T)

  /** Either a computed value or the error the source raises instead. */
  datatype Result<+T, +E> = Success(value: T) | Failure(error: E)

  /** The verdict of a validator: it passes, or it raises the given error. */
  datatype Outcome<+E> = Pass | Fail(error: E)
}

=== FILE: stability.dfy ===
/** The phase-stability test of `gibbs/stability_analysis.py`: the box search space, the
    reduced tangent-plane-distance (TPD) objective with its penalty guard, the
    renormalisation of the optimizer's point onto the simplex, and the classification
    of the result. The fluid model's fugacity, `np.log` and the optimizer are abstract. */
module Stability {
  import opened Results
  import opened Vectors
  import opened Numerics
  import opened Minimization

  /** The fluid model the test needs: its number of components and its fugacity
      `f(P, T, x)`, which the source calls but does not define. */
  datatype FluidModel = FluidModel(numberOfComponents: nat, fugacity: (real, real, Vector) -> Vector)

  /** `StabilityResult`. */
  datatype StabilityResult = StabilityResult(phaseSplit: bool, x: Vector, reducedTpd: real)

  /** Why a value cannot be computed over the reals: numpy gives `nan` or `inf` instead
      (`NonFinite`), or refuses arrays of different lengths (`ShapeMismatch`). */
  datatype StabilityError = NonFinite | ShapeMismatch

  /** The optimizer's objective, named: `_reduced_tpd`. */
  datatype Objective = ReducedTpdObjective

  /** One entry of `args=[model, P, T, f_z]`. */
  datatype TpdArg = ModelArg(model: FluidModel) | PressureArg(p: real) | TemperatureArg(t: real) | FugacityArg(fz: Vector)

  /** Tolerance of the feasibility guard in `_reduced_tpd`. */
  const FeasibilityTolerance: real := 0.01

  /** Weight of the penalty term. */
  const PenaltyParameter: real := 10.0

  /** `np.allclose` defaults. */
  const RelativeTolerance: real := 0.00001
  const AbsoluteTolerance: real := 0.00000001

  /** `[(0, 1)] * n`: one unit interval per component. */
  function SearchSpace(n: nat): (r: seq<Bound>)
    ensures |r| == n
    ensures forall i :: 0 <= i < n ==> r[i] == (0.0, 1.0)
  {
    seq(n, i => (0.0, 1.0))
  }

  /** `x` lies in the box described by `bounds`. */
  predicate InBox(x: Vector, bounds: seq<Bound>) {
    |x| == |bounds| && forall i :: 0 <= i < |x| ==> bounds[i].0 <= x[i] <= bounds[i].1
  }

  /** A point is in the search space exactly when it has one entry per component and
      every entry lies in `[0, 1]`. */
  lemma SearchSpaceMembership(x: Vector, n: nat)
    ensures InBox(x, SearchSpace(n)) <==> |x| == n && forall i :: 0 <= i < |x| ==> 0.0 <= x[i] <= 1.0
  {
    if |x| == n && forall i :: 0 <= i < |x| ==> 0.0 <= x[i] <= 1.0 {
      forall i | 0 <= i < |x|
        ensures SearchSpace(n)[i].0 <= x[i] <= SearchSpace(n)[i].1
      {
        assert SearchSpace(n)[i] == (0.0, 1.0);
      }
    }
  }

  /** `np.allclose(a, b)` for arrays of equal length. */
  predicate AllClose(a: Vector, b: Vector)
    requires |a| == |b|
  {
    forall i :: 0 <= i < |a| ==> Abs(a[i] - b[i]) <= AbsoluteTolerance + RelativeTolerance * Abs(b[i])
  }

  /** `_penalty_function`: the squared distance of the total from `feasible_limit`. */
  function PenaltyFunction(x: Vector, feasibleLimit: real): (r: real)
    ensures 0.0 <= r
    ensures r == 0.0 <==> Sum(x) == feasibleLimit
  {
    var marker := Abs(Sum(x) - feasibleLimit);
    var r := marker * marker;
    ProductFacts(marker, marker, r);
    r
  }

  /** The guard of `_reduced_tpd`: the total lies within the tolerance of 1. */
  predicate NearSimplex(x: Vector) {
    1.0 - FeasibilityTolerance <= Sum(x) <= 1.0 + FeasibilityTolerance
  }

  /** The unused `feasible_conditions` of `_reduced_tpd`: total near 1, largest entry at
      most 1, smallest at least 0. */
  predicate FeasibleConditions(x: Vector) {
    NearSimplex(x) && forall i :: 0 <= i < |x| ==> 0.0 <= x[i] <= 1.0
  }

  /** `np.sum(x * np.log(f_x / f_z))` once every ratio is known to be positive. */
  function TpdSum(math: Math, x: Vector, fx: Vector, fz: Vector): real
    requires |x| == |fx| == |fz|
    requires forall i :: 0 <= i < |fz| ==> fz[i] != 0.0
  {
    if |x| == 0 then 0.0
    else x[0] * math.ln(fx[0] / fz[0]) + TpdSum(math, x[1..], fx[1..], fz[1..])
  }

  /** Every ratio `f_x,i / f_z,i` is defined and positive, so its logarithm is finite. */
  predicate RatiosPositive(fx: Vector, fz: Vector)
    requires |fx| == |fz|
  {
    forall i :: 0 <= i < |fz| ==> fz[i] != 0.0 && 0.0 < fx[i] / fz[i]
  }

  /** The TPD of the simplex point `xn` against the feed fugacities `fz`. */
  function Tpd(math: Math, model: FluidModel, p: real, t: real, fz: Vector, xn: Vector): (r: Result<real, StabilityError>)
    ensures r.Success? <==> |model.fugacity(p, t, xn)| == |xn| == |fz| && RatiosPositive(model.fugacity(p, t, xn), fz)
    ensures |model.fugacity(p, t, xn)| != |xn| || |fz| != |xn| ==> r == Failure(ShapeMismatch)
    ensures r.Failure? && |model.fugacity(p, t, xn)| == |xn| == |fz| ==> r.error == NonFinite
  {
    var fx := model.fugacity(p, t, xn);
    if |fx| != |xn| || |fz| != |xn| then Failure(ShapeMismatch)
    else if !RatiosPositive(fx, fz) then Failure(NonFinite)
    else Success(TpdSum(math, xn, fx, fz))
  }

  /** `_reduced_tpd(x, model, P, T, f_z)`. A zero total makes every entry `nan` but keeps
      the length, so a trial point of the wrong length still fails the elementwise
      `f_x / f_z` or `x * log(...)` with a shape error. */
  function ReducedTpd(math: Math, model: FluidModel, p: real, t: real, fz: Vector, x: Vector): (r: Result<real, StabilityError>)
    ensures 0 < |x| && |x| != |fz| ==> r == Failure(ShapeMismatch)
    ensures Sum(x) == 0.0 && (|x| == 0 || |x| == |fz|) ==> r == Failure(NonFinite)
    ensures Sum(x) != 0.0 ==> r == Tpd(math, model, p, t, fz, Normalize(x))
  {
    if 0 < |x| && |x| != |fz| then Failure(ShapeMismatch)
    else if Sum(x) == 0.0 then Failure(NonFinite)
    else
      var xn := Normalize(x);
      match Tpd(math, model, p, t, fz, xn)
      case Failure(e) => Failure(e)
      case Success(tpd) =>
        NormalizedNearSimplex(x);
        if !NearSimplex(xn) then Success(tpd + PenaltyParameter * PenaltyFunction(xn, 1.0))
        else Success(tpd)
  }

  /** Over the reals the renormalised point sums to exactly 1, so the penalty guard of
      `_reduced_tpd` always passes. */
  lemma NormalizedNearSimplex(x: Vector)
    requires Sum(x) != 0.0
    ensures NearSimplex(Normalize(x))
    ensures PenaltyFunction(Normalize(x), 1.0) == 0.0
  {
  }

  /** The unused `feasible_conditions` hold at every renormalised non-negative point. */
  lemma NormalizedFeasible(x: Vector)
    requires NonNegative(x) && Sum(x) != 0.0
    ensures FeasibleConditions(Normalize(x))
  {
  }

  /** The objective only sees the direction of `x`: it is unchanged by any non-zero scaling. */
  lemma ReducedTpdScaleInvariant(math: Math, model: FluidModel, p: real, t: real, fz: Vector, x: Vector, c: real)
    requires c != 0.0
    ensures ReducedTpd(math, model, p, t, fz, Scale(c, x)) == ReducedTpd(math, model, p, t, fz, x)
  {
    SumScale(c, x);
    if Sum(x) != 0.0 {
      NormalizeScale(c, x);
    } else {
      assert Sum(Scale(c, x)) == 0.0;
    }
  }

  /** With `ln(1) = 0`, a TPD sum of fugacities against themselves is zero. */
  lemma {:induction false} TpdSumSelf(math: Math, x: Vector, f: Vector)
    requires LnSound(math) && |x| == |f|
    requires forall i :: 0 <= i < |f| ==> f[i] != 0.0
    ensures TpdSum(math, x, f, f) == 0.0
  {
    if |x| > 0 {
      assert f[0] / f[0] == 1.0;
      TpdSumSelf(math, x[1..], f[1..]);
    }
  }

  /** At the feed itself the objective is zero, whenever it is defined. */
  lemma ReducedTpdAtFeed(math: Math, model: FluidModel, p: real, t: real, z: Vector)
    requires LnSound(math) && Sum(z) == 1.0
    requires ReducedTpd(math, model, p, t, model.fugacity(p, t, z), z).Success?
    ensures ReducedTpd(math, model, p, t, model.fugacity(p, t, z), z) == Success(0.0)
  {
    NormalizeFixed(z);
    var fz := model.fugacity(p, t, z);
    assert RatiosPositive(fz, fz);
    TpdSumSelf(math, z, fz);
  }

  /** The `differential_evolution` call `stability_test` makes. */
  function TpdRequest(model: FluidModel, p: real, t: real, z: Vector, monitor: bool): (r: DeCall<Objective, TpdArg>)
    ensures r.bounds == SearchSpace(model.numberOfComponents)
    ensures r.args == [ModelArg(model), PressureArg(p), TemperatureArg(t), FugacityArg(model.fugacity(p, t, z))]
    ensures r.popsize == Some(25) && r.recombination == Some(0.9) && r.disp == Some(monitor) && r.polish == Some(false)
    ensures r.strategy.None? && r.mutation.None? && r.tol.None? && r.seed.None? && r.workers.None?
  {
    DeCall(ReducedTpdObjective, SearchSpace(model.numberOfComponents),
           [ModelArg(model), PressureArg(p), TemperatureArg(t), FugacityArg(model.fugacity(p, t, z))],
           None, Some(25), Some(0.9), None, None, Some(monitor), Some(false), None, None)
  }

  /** The three-way rule: a point close to the feed is never a split; otherwise a negative
      TPD is one. */
  function Classify(x: Vector, z: Vector, reducedTpd: real): (r: bool)
    requires |x| == |z|
    ensures r <==> !AllClose(x, z) && reducedTpd < 0.0
  {
    if AllClose(x, z) then false
    else if reducedTpd < 0.0 then true
    else false
  }

  /** `stability_test(model, P, T, z, monitor)`, with the optimizer `de` as a parameter. */
  function StabilityTest(model: FluidModel, p: real, t: real, z: Vector, monitor: bool,
                         de: DeCall<Objective, TpdArg> -> OptimizeResult): (r: Result<StabilityResult, StabilityError>)
    ensures var out := de(TpdRequest(model, p, t, z, monitor));
            r.Success? <==> Sum(out.x) != 0.0 && |out.x| == |z|
    ensures var out := de(TpdRequest(model, p, t, z, monitor));
            |out.x| != |z| ==> r == Failure(ShapeMismatch)
    ensures var out := de(TpdRequest(model, p, t, z, monitor));
            |out.x| == |z| && Sum(out.x) == 0.0 ==> r == Failure(NonFinite)
    ensures var out := de(TpdRequest(model, p, t, z, monitor));
            r.Success? ==> && r.value.reducedTpd == out.fun
                           && r.value.x == Normalize(out.x)
                           && Sum(r.value.x) == 1.0
                           && |r.value.x| == |z|
                           && (r.value.phaseSplit <==> !AllClose(r.value.x, z) && out.fun < 0.0)
  {
    var out := de(TpdRequest(model, p, t, z, monitor));
    // Division by a zero sum yields a nan array of the same length, so the length test of
    // `np.allclose` comes first.
    if |out.x| != |z| then Failure(ShapeMismatch)
    else if Sum(out.x) == 0.0 then Failure(NonFinite)
    else
      var x := Normalize(out.x);
      Success(StabilityResult(Classify(x, z, out.fun), x, out.fun))
  }

  /** When the optimizer keeps to its search space, the reported composition lies on the
      simplex: it sums to 1 and every fraction is in `[0, 1]`. */
  lemma StabilityCompositionOnSimplex(model: FluidModel, p: real, t: real, z: Vector, monitor: bool,
                                      de: DeCall<Objective, TpdArg> -> OptimizeResult, res: StabilityResult)
    requires InBox(de(TpdRequest(model, p, t, z, monitor)).x, SearchSpace(model.numberOfComponents))
    requires StabilityTest(model, p, t, z, monitor, de) == Success(res)
    ensures Sum(res.x) == 1.0
    ensures forall i :: 0 <= i < |res.x| ==> 0.0 <= res.x[i] <= 1.0
  {
    var out := de(TpdRequest(model, p, t, z, monitor));
    SearchSpaceMembership(out.x, model.numberOfComponents);
    assert NonNegative(out.x);
  }

  /** When the optimizer reports the objective at its own point, a reported split comes
      with a composition away from the feed whose TPD is negative. */
  lemma SplitHasNegativeTpd(math: Math, model: FluidModel, p: real, t: real, z: Vector, monitor: bool,
                            de: DeCall<Objective, TpdArg> -> OptimizeResult, res: StabilityResult)
    requires var out := de(TpdRequest(model, p, t, z, monitor));
             ReducedTpd(math, model, p, t, model.fugacity(p, t, z), out.x) == Success(out.fun)
    requires StabilityTest(model, p, t, z, monitor, de) == Success(res)
    requires res.phaseSplit
    ensures |res.x| == |z| && !AllClose(res.x, z)
    ensures ReducedTpd(math, model, p, t, model.fugacity(p, t, z), res.x) == Success(res.reducedTpd)
    ensures res.reducedTpd < 0.0
  {
    var out := de(TpdRequest(model, p, t, z, monitor));
    NormalizeFixed(res.x);
  }
}

=== FILE: vectors.dfy ===
/** Exact-real vectors and matrices: the subset of numpy the core relies on
    (`sum`, `dot`, `outer`, scalar scaling and division by the sum). */
module Vectors {

  type Vector = seq<real>

  function Abs(x: real): real {
    if x < 0.0 then -x else x
  }

  /** `np.sum`. */
  function Sum(v: Vector): real {
    if |v| == 0 then 0.0 else v[0] + Sum(v[1..])
  }

  /** Every entry is at least zero. */
  predicate NonNegative(v: Vector) {
    forall i :: 0 <= i < |v| ==> 0.0 <= v[i]
  }

  /** `c * v`. */
  function Scale(c: real, v: Vector): (r: Vector)
    ensures |r| == |v| && forall i :: 0 <= i < |v| ==> r[i] == c * v[i]
  {
    seq(|v|, i requires 0 <= i < |v| => c * v[i])
  }

  /** `a + b` for equal lengths. */
  function Add(a: Vector, b: Vector): (r: Vector)
    requires |a| == |b|
    ensures |r| == |a| && forall i :: 0 <= i < |a| ==> r[i] == a[i] + b[i]
  {
    seq(|a|, i requires 0 <= i < |a| => a[i] + b[i])
  }

  /** The pure-component vector `e_k` of length `n`. */
  function Unit(n: nat, k: nat): (r: Vector)
    ensures |r| == n && forall i :: 0 <= i < n ==> r[i] == if i == k then 1.0 else 0.0
  {
    seq(n, i requires 0 <= i < n => if i == k then 1.0 else 0.0)
  }

  /** `v / v.sum()`: the point of the simplex on the ray through `v`. Dividing each entry
      by the total is written as scaling by the total's reciprocal, which is the same
      over the reals. */
  function Normalize(v: Vector): (r: Vector)
    requires Sum(v) != 0.0
    ensures |r| == |v|
    ensures Sum(r) == 1.0
    ensures NonNegative(v) ==> NonNegative(r) && forall i :: 0 <= i < |r| ==> r[i] <= 1.0
  {
    var r := Scale(1.0 / Sum(v), v);
    NormalizedFacts(v, r);
    r
  }

  lemma NormalizedFacts(v: Vector, r: Vector)
    requires Sum(v) != 0.0 && r == Scale(1.0 / Sum(v), v)
    ensures Sum(r) == 1.0
    ensures NonNegative(v) ==> NonNegative(r) && forall i :: 0 <= i < |r| ==> r[i] <= 1.0
  {
    NormalizedSum(v);
    if NonNegative(v) {
      forall i | 0 <= i < |v|
        ensures 0.0 <= r[i] <= 1.0
      {
        NormalizedEntryBounds(v, i);
      }
    }
  }

  lemma NormalizedSum(v: Vector)
    requires Sum(v) != 0.0
    ensures Sum(Scale(1.0 / Sum(v), v)) == 1.0
  {
    SumScale(1.0 / Sum(v), v);
    ReciprocalTimes(Sum(v));
  }

  lemma NormalizedEntryBounds(v: Vector, i: nat)
    requires Sum(v) != 0.0 && NonNegative(v) && i < |v|
    ensures 0.0 <= Scale(1.0 / Sum(v), v)[i] <= 1.0
  {
    EntryAtMostSum(v, i);
    FractionBounds(v[i], Sum(v));
    ScaleEntry(1.0 / Sum(v), v, i);
  }

  lemma ReciprocalTimes(s: real)
    requires s != 0.0
    ensures (1.0 / s) * s == 1.0
  {
  }

  lemma FractionBounds(a: real, s: real)
    requires 0.0 <= a <= s && s != 0.0
    ensures 0.0 <= (1.0 / s) * a <= 1.0
  {
    assert 0.0 < s;
    assert (1.0 / s) * a == a / s;
  }

  /** A non-negative vector has a non-negative total. */
  lemma {:induction false} SumNonNegative(v: Vector)
    requires NonNegative(v)
    ensures 0.0 <= Sum(v)
  {
    if |v| > 0 {
      SumNonNegative(v[1..]);
    }
  }

  /** In a non-negative vector no entry exceeds the total. */
  lemma {:induction false} EntryAtMostSum(v: Vector, k: nat)
    requires NonNegative(v) && k < |v|
    ensures v[k] <= Sum(v)
  {
    SumNonNegative(v[1..]);
    if k > 0 {
      EntryAtMostSum(v[1..], k - 1);
    }
  }

  /** Scaling commutes with summation. */
  lemma {:induction false} SumScale(c: real, v: Vector)
    ensures Sum(Scale(c, v)) == c * Sum(v)
  {
    if |v| > 0 {
      ScaleTail(c, v);
      SumScale(c, v[1..]);
    }
  }

  lemma ScaleTail(c: real, v: Vector)
    requires |v| > 0
    ensures Scale(c, v)[1..] == Scale(c, v[1..])
  {
    var a := Scale(c, v)[1..];
    var b := Scale(c, v[1..]);
    forall i | 0 <= i < |a|
      ensures a[i] == b[i]
    {
      assert a[i] == Scale(c, v)[i + 1];
      assert b[i] == c * v[1..][i];
    }
  }

  /** Normalisation forgets any non-zero scale factor. */
  lemma NormalizeScale(c: real, v: Vector)
    requires c != 0.0 && Sum(v) != 0.0
    ensures Sum(Scale(c, v)) != 0.0
    ensures Normalize(Scale(c, v)) == Normalize(v)
  {
    var s := Sum(v);
    SumScale(c, v);
    var t := Sum(Scale(c, v));
    Reciprocal(c, s, t);
    ScaleScale(1.0 / t, c, 1.0 / s, v);
  }

  lemma ScaleEntry(c: real, v: Vector, i: nat)
    requires i < |v|
    ensures Scale(c, v)[i] == c * v[i]
  {
  }

  lemma ScaleScale(a: real, b: real, ab: real, v: Vector)
    requires ab == a * b
    ensures Scale(a, Scale(b, v)) == Scale(ab, v)
  {
    forall i | 0 <= i < |v|
      ensures Scale(a, Scale(b, v))[i] == Scale(ab, v)[i]
    {
      assert a * (b * v[i]) == (a * b) * v[i];
    }
  }

  /** `(1 / (c·s))·c = 1 / s`, and `c·s` is not zero. */
  lemma Reciprocal(c: real, s: real, t: real)
    requires c != 0.0 && s != 0.0 && t == c * s
    ensures t != 0.0 && (1.0 / t) * c == 1.0 / s
  {
  }

  /** A vector already on the simplex is its own normalisation. */
  lemma NormalizeFixed(v: Vector)
    requires Sum(v) == 1.0
    ensures Normalize(v) == v
  {
  }

  /** `np.dot` of two vectors of the same length. */
  function Dot(a: Vector, b: Vector): real
    requires |a| == |b|
  {
    if |a| == 0 then 0.0 else a[0] * b[0] + Dot(a[1..], b[1..])
  }

  /** A dot product with a vector that is zero outside position `k` picks out position `k`. */
  lemma {:induction false} DotSingle(a: Vector, b: Vector, k: nat)
    requires |a| == |b| && k < |a|
    requires forall i :: 0 <= i < |a| && i != k ==> a[i] == 0.0
    ensures Dot(a, b) == a[k] * b[k]
  {
    if k == 0 {
      DotZero(a[1..], b[1..]);
    } else {
      DotSingle(a[1..], b[1..], k - 1);
    }
  }

  lemma {:induction false} DotZero(a: Vector, b: Vector)
    requires |a| == |b|
    requires forall i :: 0 <= i < |a| ==> a[i] == 0.0
    ensures Dot(a, b) == 0.0
  {
    if |a| > 0 {
      DotZero(a[1..], b[1..]);
    }
  }

  /** The sum of a vector that is zero outside position `k` is its entry at `k`. */
  lemma {:induction false} SumSingle(v: Vector, k: nat)
    requires k < |v|
    requires forall i :: 0 <= i < |v| && i != k ==> v[i] == 0.0
    ensures Sum(v) == v[k]
  {
    if k == 0 {
      SumZero(v[1..]);
    } else {
      SumSingle(v[1..], k - 1);
    }
  }

  lemma {:induction false} SumZero(v: Vector)
    requires forall i :: 0 <= i < |v| ==> v[i] == 0.0
    ensures Sum(v) == 0.0
  {
    if |v| > 0 {
      SumZero(v[1..]);
    }
  }

  /** A quotient times its non-zero divisor gives back the dividend. */
  lemma QuotientTimesDivisor(x: real, d: real, q: real)
    requires d != 0.0 && q == x / d
    ensures q * d == x
  {
  }

  lemma DotUnit(k: nat, b: Vector)
    requires k < |b|
    ensures Dot(Unit(|b|, k), b) == b[k]
  {
    DotSingle(Unit(|b|, k), b, k);
  }

  lemma {:induction false} DotScaleLeft(c: real, a: Vector, b: Vector)
    requires |a| == |b|
    ensures Dot(Scale(c, a), b) == c * Dot(a, b)
  {
    if |a| > 0 {
      ScaleTail(c, a);
      DotScaleLeft(c, a[1..], b[1..]);
    }
  }

  lemma {:induction false} DotScaleRight(c: real, a: Vector, b: Vector)
    requires |a| == |b|
    ensures Dot(a, Scale(c, b)) == c * Dot(a, b)
  {
    if |a| > 0 {
      ScaleTail(c, b);
      DotScaleRight(c, a[1..], b[1..]);
    }
  }

  lemma {:induction false} DotAddLeft(a1: Vector, a2: Vector, b: Vector)
    requires |a1| == |a2| == |b|
    ensures Dot(Add(a1, a2), b) == Dot(a1, b) + Dot(a2, b)
  {
    if |b| > 0 {
      assert Add(a1, a2)[1..] == Add(a1[1..], a2[1..]);
      DotAddLeft(a1[1..], a2[1..], b[1..]);
    }
  }

  /** A two-dimensional numpy array: `rows` by `cols`, every row of length `cols`. */
  datatype Matrix = Matrix(rows: nat, cols: nat, cells: seq<seq<real>>) {

    predicate Rectangular() {
      |cells| == rows && forall i :: 0 <= i < |cells| ==> |cells[i]| == cols
    }

    predicate Symmetric()
      requires Rectangular()
    {
      rows == cols && forall i, j :: 0 <= i < rows && 0 <= j < rows ==> cells[i][j] == cells[j][i]
    }
  }

  /** Column `j` of a matrix. */
  function Column(m: Matrix, j: nat): Vector
    requires m.Rectangular() && j < m.cols
  {
    seq(m.rows, i requires 0 <= i < m.rows => m.cells[i][j])
  }

  /** `np.dot(v, M)`: the row vector `v` times the matrix `M`. */
  function VecMat(v: Vector, m: Matrix): (r: Vector)
    requires m.Rectangular() && |v| == m.rows
    ensures |r| == m.cols
  {
    seq(m.cols, j requires 0 <= j < m.cols => Dot(v, Column(m, j)))
  }

  /** `np.dot(v, np.dot(v, M))`: the quadratic form vᵀ·M·v. */
  function QuadraticForm(v: Vector, m: Matrix): real
    requires m.Rectangular() && m.rows == m.cols == |v|
  {
    Dot(v, VecMat(v, m))
  }

  /** On a pure-component vector the quadratic form is the diagonal entry. */
  lemma QuadraticFormUnit(m: Matrix, k: nat)
    requires m.Rectangular() && m.rows == m.cols && k < m.rows
    ensures QuadraticForm(Unit(m.rows, k), m) == m.cells[k][k]
  {
    var e := Unit(m.rows, k);
    var w := VecMat(e, m);
    forall j | 0 <= j < m.cols
      ensures w[j] == m.cells[k][j]
    {
      DotUnit(k, Column(m, j));
    }
    DotUnit(k, w);
  }

  /** The quadratic form is homogeneous of degree two. */
  lemma QuadraticFormScale(c: real, v: Vector, m: Matrix)
    requires m.Rectangular() && m.rows == m.cols == |v|
    ensures QuadraticForm(Scale(c, v), m) == c * (c * QuadraticForm(v, m))
  {
    var w := VecMat(v, m);
    calc {
      QuadraticForm(Scale(c, v), m);
      { VecMatScale(c, v, m); }
      Dot(Scale(c, v), Scale(c, w));
      { DotScaleLeft(c, v, Scale(c, w)); }
      c * Dot(v, Scale(c, w));
      { DotScaleRight(c, v, w); MultiplyEqual(c, Dot(v, Scale(c, w)), c * Dot(v, w)); }
      c * (c * Dot(v, w));
    }
  }

  /** Scaling the row vector scales its product with a matrix. */
  lemma VecMatScale(c: real, v: Vector, m: Matrix)
    requires m.Rectangular() && |v| == m.rows
    ensures VecMat(Scale(c, v), m) == Scale(c, VecMat(v, m))
  {
    var w := VecMat(v, m);
    var w' := VecMat(Scale(c, v), m);
    forall j | 0 <= j < m.cols
      ensures w'[j] == Scale(c, w)[j]
    {
      DotScaleLeft(c, v, Column(m, j));
    }
  }

  /** `np.dot(M, v)`: the matrix `M` times the column vector `v`. */
  function MatVec(m: Matrix, v: Vector): (r: Vector)
    requires m.Rectangular() && |v| == m.cols
    ensures |r| == m.rows
  {
    seq(m.rows, i requires 0 <= i < m.rows => Dot(m.cells[i], v))
  }

  /** The matrix without its first row. */
  function DropRow(m: Matrix): (r: Matrix)
    requires m.Rectangular() && 0 < m.rows
    ensures r.Rectangular() && r.rows == m.rows - 1 && r.cols == m.cols
  {
    Matrix(m.rows - 1, m.cols, m.cells[1..])
  }

  lemma {:induction false} DotCommutes(a: Vector, b: Vector)
    requires |a| == |b|
    ensures Dot(a, b) == Dot(b, a)
  {
    if |a| > 0 {
      DotCommutes(a[1..], b[1..]);
    }
  }

  /** `y·M` splits into the first row weighted by `y₀` and the product of the rest. */
  lemma VecMatFirstRow(y: Vector, m: Matrix)
    requires m.Rectangular() && |y| == m.rows && 0 < m.rows
    ensures VecMat(y, m) == Add(Scale(y[0], m.cells[0]), VecMat(y[1..], DropRow(m)))
  {
    var t := DropRow(m);
    var w := VecMat(y, m);
    var sum := Add(Scale(y[0], m.cells[0]), VecMat(y[1..], t));
    forall j | 0 <= j < m.cols
      ensures w[j] == sum[j]
    {
      assert Column(m, j)[1..] == Column(t, j);
    }
  }

  /** `x · (y·M) = y · (M·x)`: a bilinear form summed column by column equals the same
      form summed row by row. */
  lemma {:induction false} VecMatMatVec(x: Vector, y: Vector, m: Matrix)
    requires m.Rectangular() && |y| == m.rows && |x| == m.cols
    ensures Dot(x, VecMat(y, m)) == Dot(y, MatVec(m, x))
    decreases m.rows
  {
    var w := VecMat(y, m);
    if m.rows == 0 {
      DotZero(w, x);
      DotCommutes(x, w);
    } else {
      var t := DropRow(m);
      var row := m.cells[0];
      var wt := VecMat(y[1..], t);
      var mx := MatVec(m, x);
      calc {
        Dot(x, w);
        { DotCommutes(x, w); }
        Dot(w, x);
        { VecMatFirstRow(y, m); DotAddLeft(Scale(y[0], row), wt, x); }
        Dot(Scale(y[0], row), x) + Dot(wt, x);
        { DotScaleLeft(y[0], row, x); DotCommutes(wt, x); }
        y[0] * Dot(row, x) + Dot(x, wt);
        { VecMatMatVec(x, y[1..], t); }
        y[0] * Dot(row, x) + Dot(y[1..], MatVec(t, x));
        { assert mx[1..] == MatVec(t, x); }
        Dot(y, mx);
      }
    }
  }

  /** The quadratic form `np.dot(v, np.dot(v, M))` is the double sum Σᵢ vᵢ·(Σⱼ Mᵢⱼ·vⱼ). */
  lemma QuadraticFormByRows(v: Vector, m: Matrix)
    requires m.Rectangular() && m.rows == m.cols == |v|
    ensures QuadraticForm(v, m) == Dot(v, MatVec(m, v))
  {
    VecMatMatVec(v, v, m);
  }

  lemma MultiplyEqual(c: real, x: real, y: real)
    requires x == y
    ensures c * x == c * y
  {
  }
}
